=== FILE: README.md ===
# Agile Planner: the scheduling core, modelled in Dafny

This project models the allocation engine of Agile Planner, a Java task
planner, and proves properties of the model. It also models two small parsers
from the planner's scripting language. The model covers:

- **`CompactScheduler`**
  - `assignDay`: a greedy loop that pops the earliest-due task, computes how
    many hours it may take on the day, attempts the allocation and routes the
    task to the `complete` queue or back to the pending queue.
  - `getMaxHours`: the per-task hour budget.
- **`ScheduleManager`**
  - `buildSchedule` and `resetSchedule`.
  - Two past-due archiving loops: in `buildSchedule` and in `importJBinFile`.
  - Task bookkeeping: `addTask` (both overloads), `removeTask`, `editTask`,
    `getTask` and `addTaskToCard`.
- **`PrintState.verifyString`**: extracts the literal of a `print: "..."` line.
- **`TaskState.processFunc`**: the `task: name, hours, days` statement.

Modules:

| file | module | models |
|---|---|---|
| wrappers.dfy | `Wrappers` | `Option` (Java `null`) and `Result` (a thrown exception) |
| tasks.dfy | `Tasks` | `Task`; the `PriorityQueue<Task>` as a sequence kept ordered by due date |
| days.dfy | `Days` | `Day`, the `Calendar` reading (`Clock`), the scheduling fields of the user configuration |
| compact_scheduler.dfy | `CompactScheduler` | `getMaxHours`, `assignDay` |
| schedule_manager.dfy | `ScheduleManager` | the manager state and its operations |
| print_state.dfy | `PrintState` | `verifyString` |
| task_state.dfy | `TaskState` | `processFunc`, `Integer.parseInt` |

Modelling choices:

- Dates are integer day indices. Hours are `real`. The only fractional value
  the code introduces is the half hour at CompactScheduler.java:106.
- The priority queue is a sequence ordered by due date. A task added to it goes
  after every task due on the same day or earlier.
- The `Day` and `Task` classes are not part of this model. The model uses
  them only through what the core relies on:
  - whether `Day.addSubTaskManually` accepts an allocation is the parameter
    `accept`;
  - an accepted allocation moves the hours from the task onto the day;
  - `Day.getSpareHours()` is floored at zero.
- Task conservation is stated on `Bag(q)`. This is the multiset of a queue's
  tasks with their hour allocations undone, so a task is the same task before
  and after hours are allocated to it.
- The pre-archive loop of `buildSchedule` is modelled both as written and
  corrected (see Findings). `BuildSchedule` uses the corrected loop.
- `assignDay`'s first loop is the recursive function `FillDay`.
  `buildSchedule`'s day loop is the method `FillDays`, with its invariants.

## Model

| member | source | states |
|---|---|---|
| CompactScheduler.StartingHour | src/main/java/com/planner/schedule/CompactScheduler.java:88-97 | On the clock's own date the day starts at the later of the configured start and the current hour; on any other date it starts at the configured start. |
| CompactScheduler.MaxHours | src/main/java/com/planner/schedule/CompactScheduler.java:99-128 | The budget is never negative and never exceeds the task's remaining hours. For work not due that day it stays within the spare hours, and today within the working window left. With fitDay, due work stays before midnight. Without fitDay, due work gets exactly its remaining hours. Every budget is 0, at least minHours, or the whole remainder. |
| CompactScheduler.StepAccounting | src/main/java/com/planner/schedule/CompactScheduler.java:66-76 | One iteration: an accepted allocation lowers the task's remaining hours by the budget and raises the day's filled hours by the same amount, recording the allocation. A rejected one changes neither and adds one error. |
| CompactScheduler.StepRouting | src/main/java/com/planner/schedule/CompactScheduler.java:71-72 | The popped task goes to `complete` exactly when it is due on the day or has no hours left; otherwise it goes to the local `incomplete` buffer. |
| CompactScheduler.StepConserves | src/main/java/com/planner/schedule/CompactScheduler.java:66-72 | One iteration moves the popped task and loses or invents none. |
| CompactScheduler.StepForcedCompletion | src/main/java/com/planner/schedule/CompactScheduler.java:111-113 | Without fitDay, a due-today task that the day accepts is finished that day and routed to `complete`. |
| CompactScheduler.StepValid | src/main/java/com/planner/schedule/CompactScheduler.java:66-72 | Allocation keeps every task's remaining hours between 0 and its total. |
| CompactScheduler.FillDay | src/main/java/com/planner/schedule/CompactScheduler.java:63-79 | The loop pops a prefix of the queue and records one action per popped task. It runs at least once when the guard holds. The day keeps its id, date and capacity. |
| CompactScheduler.FillDayStops | src/main/java/com/planner/schedule/CompactScheduler.java:78 | No action before the last one is a rejected allocation of work due after the day. |
| CompactScheduler.FillDayExit | src/main/java/com/planner/schedule/CompactScheduler.java:63-78 | The loop ends only when its guard fails, or right after a rejected allocation of work due after the day. |
| CompactScheduler.FillDayIdentity | src/main/java/com/planner/schedule/CompactScheduler.java:66-69 | The k-th action is about the k-th task of the queue. |
| CompactScheduler.FillDayErrors | src/main/java/com/planner/schedule/CompactScheduler.java:62-76 | The error count grows by exactly the number of rejected allocations, and the day's filled hours stay the sum of its allocations. |
| CompactScheduler.FillDayRouting | src/main/java/com/planner/schedule/CompactScheduler.java:71-72 | Both routing queues only grow at the end. Everything added to `complete` is settled on the day; everything added to `incomplete` is not. |
| CompactScheduler.FillDayConserves | src/main/java/com/planner/schedule/CompactScheduler.java:66-72 | The loop's pending, complete and incomplete queues together keep the same tasks. |
| CompactScheduler.FillDayValid | src/main/java/com/planner/schedule/CompactScheduler.java:66-72 | With minHours >= 0 the loop keeps every task's hours between 0 and its total. |
| CompactScheduler.AssignDay | src/main/java/com/planner/schedule/CompactScheduler.java:60-84 | assignDay performs at most one iteration per pending task, and at least one when the guard holds on entry. The pending queue never grows. The day keeps its id, date and capacity. |
| CompactScheduler.AssignDayLog | src/main/java/com/planner/schedule/CompactScheduler.java:62-83 | The k-th action is about the k-th pending task. The returned count equals the input count plus the failed allocations, so it never decreases. Only the last action can have stopped the loop. The day's accounting stays consistent. |
| CompactScheduler.AssignDayConserves | src/main/java/com/planner/schedule/CompactScheduler.java:66-82 | Pending plus complete before equals pending plus complete after, as multisets of tasks and in size. |
| CompactScheduler.AssignDayCompleteSettled | src/main/java/com/planner/schedule/CompactScheduler.java:71 | `complete` keeps its tasks. Every task it gains is due on the day or has no hours left. |
| CompactScheduler.AssignDayPendingUnsettled | src/main/java/com/planner/schedule/CompactScheduler.java:72-82 | The pending queue afterwards holds every task never popped. Every task it holds beyond those is neither due on the day nor finished. |
| CompactScheduler.AssignDaySorted | src/main/java/com/planner/schedule/CompactScheduler.java:71-82 | Both queues stay ordered by due date. |
| CompactScheduler.AssignDayValid | src/main/java/com/planner/schedule/CompactScheduler.java:66-82 | With minHours >= 0, every task in either queue keeps 0 <= remaining <= total. |
| Days.NewDay | src/main/java/com/planner/manager/ScheduleManager.java:511 | A new day has nothing filled and no allocations. |
| Days.Spare | src/test/java/com/agile/planner/schedule/DynamicSchedulerTest.java:81-83 | Spare hours are never negative. They are 0 exactly when the day is full or over-filled. Otherwise filled plus spare is the capacity. |
| Days.Allocate | src/main/java/com/planner/schedule/CompactScheduler.java:69 | An accepted allocation raises filled hours by exactly the hours and appends one allocation, keeping the day consistent. |
| Tasks.NewTask | src/main/java/com/planner/manager/ScheduleManager.java:413 | A new task has all its hours outstanding, and resetting it changes nothing. |
| Tasks.Insert | src/main/java/com/planner/manager/ScheduleManager.java:415 | Adding to the queue grows it by one and adds exactly that task. |
| Tasks.InsertBag | src/main/java/com/planner/manager/ScheduleManager.java:415 | Adding a task adds it to the queue's contents counted up to allocations. |
| Tasks.InsertSorted | src/main/java/com/planner/manager/ScheduleManager.java:415 | Adding a task keeps the queue ordered by due date. |
| Tasks.InsertAllFacts | src/main/java/com/planner/schedule/CompactScheduler.java:80-82 | Draining one queue into another gives exactly the tasks of both, and keeps an ordered target ordered. |
| Tasks.InsertAllSorted | src/main/java/com/planner/manager/ScheduleManager.java:526-531 | Re-adding an ordered queue's tasks in queue order reproduces the queue. |
| Tasks.RemoveFirst | src/main/java/com/planner/manager/ScheduleManager.java:432-434 | Removing a task id from a card list takes one occurrence out when there is one, and changes nothing otherwise. |
| Tasks.HoldsBag | src/main/java/com/planner/manager/ScheduleManager.java:445 | The queue holds a task, up to allocated hours, exactly when the task is among its contents counted up to allocations. |
| Tasks.FindSame | src/main/java/com/planner/manager/ScheduleManager.java:446 | The index found holds a record of the task, and no earlier index does. |
| Tasks.RemoveSame | src/main/java/com/planner/manager/ScheduleManager.java:446 | Removing a held task shortens the queue by one and takes out exactly the first record of that task. A task not held leaves the queue as it is. |
| Tasks.RemoveSameBag | src/main/java/com/planner/manager/ScheduleManager.java:446 | Removing takes exactly one copy of the task out of the queue's contents counted up to allocations, and none when it is absent. |
| Tasks.RemoveSameGone | src/main/java/com/planner/manager/ScheduleManager.java:446 | A task the queue held once is no longer held after it is removed. |
| Tasks.RemoveSameSorted | src/main/java/com/planner/manager/ScheduleManager.java:446 | Removing a task keeps the queue ordered by due date. |
| ScheduleManager.ResetSchedule | src/main/java/com/planner/manager/ScheduleManager.java:523-534 | The schedule empties and the error count and day counter become 0. The pending queue keeps its size, and every other field is unchanged. |
| ScheduleManager.ResetScheduleKeeps | src/main/java/com/planner/manager/ScheduleManager.java:526-531 | The new queue holds exactly the old tasks, each reset. |
| ScheduleManager.ResetScheduleFresh | src/main/java/com/planner/manager/ScheduleManager.java:528 | After the reset every pending task has all its hours outstanding. |
| ScheduleManager.ResetScheduleSorted | src/main/java/com/planner/manager/ScheduleManager.java:525-531 | The rebuilt queue is ordered by due date. |
| ScheduleManager.ResetScheduleSameOrder | src/main/java/com/planner/manager/ScheduleManager.java:526-531 | An ordered queue comes back task for task in the same order, each task reset. |
| ScheduleManager.ResetScheduleInv | src/main/java/com/planner/manager/ScheduleManager.java:523-534 | resetSchedule keeps the manager invariant. |
| ScheduleManager.ArchiveLoopAsWritten | src/main/java/com/planner/manager/ScheduleManager.java:505-507 | A loop that never re-reads `head` either throws or changes nothing. |
| ScheduleManager.ArchiveLoopThrows | src/main/java/com/planner/manager/ScheduleManager.java:505-507 | Once `head` qualifies, the loop as written always ends by throwing NoSuchElementException. |
| ScheduleManager.PreArchiveAsWrittenThrows | src/main/java/com/planner/manager/ScheduleManager.java:502-508 | As written, the archive step throws exactly when the queue's head qualifies, and otherwise archives nothing. |
| ScheduleManager.PreArchiveCounterexample | src/main/java/com/planner/manager/ScheduleManager.java:502-508 | One task due ten days ago makes the loop as written throw, while the corrected loop archives that task. |
| ScheduleManager.QualifyingPrefix | src/main/java/com/planner/manager/ScheduleManager.java:505-506 | The length of the longest run of qualifying tasks at the head of the queue. |
| ScheduleManager.PreArchive | src/main/java/com/planner/manager/ScheduleManager.java:502-508 | After the corrected archive, the head of the pending queue does not qualify, and the queue does not grow. |
| ScheduleManager.PreArchiveKeeps | src/main/java/com/planner/manager/ScheduleManager.java:502-508 | Pending plus archived keeps exactly the same tasks. |
| ScheduleManager.PreArchiveOnlyQualifying | src/main/java/com/planner/manager/ScheduleManager.java:502-508 | Only qualifying tasks are archived, taken from the head of the queue; what remains is the rest of the queue in order. |
| ScheduleManager.PreArchiveSorted | src/main/java/com/planner/manager/ScheduleManager.java:502-508 | Both queues stay ordered. |
| ScheduleManager.PreArchiveAgrees | src/main/java/com/planner/manager/ScheduleManager.java:502-508 | When the head does not qualify, the loop as written and the corrected loop agree. |
| ScheduleManager.PastPrefix | src/main/java/com/planner/manager/ScheduleManager.java:299-301 | The length of the run of tasks due before today at the head of the queue. |
| ScheduleManager.ArchivePast | src/main/java/com/planner/manager/ScheduleManager.java:298-310 | The import archive never grows the pending queue. |
| ScheduleManager.PutBack | src/main/java/com/planner/manager/ScheduleManager.java:306-308 | The first task not past due, popped and added back, leaves exactly the unpopped tasks pending. |
| ScheduleManager.ArchivePastKeeps | src/main/java/com/planner/manager/ScheduleManager.java:298-310 | Archived plus pending equals the original set of tasks. |
| ScheduleManager.ArchivePastOnlyPast | src/main/java/com/planner/manager/ScheduleManager.java:299-305 | Only tasks due before today are archived, and only from the head of the queue. |
| ScheduleManager.ArchivePastNothingPast | src/main/java/com/planner/manager/ScheduleManager.java:298-310 | On an ordered queue, no task due before today remains pending. |
| ScheduleManager.ArchivePastSortedPending | src/main/java/com/planner/manager/ScheduleManager.java:306-308 | The pending queue stays ordered. |
| ScheduleManager.ArchivePastSortedArchived | src/main/java/com/planner/manager/ScheduleManager.java:302 | The archive stays ordered. |
| ScheduleManager.ImportArchive | src/main/java/com/planner/manager/ScheduleManager.java:298-311 | After the import archive, the id counter equals the number of pending tasks; the schedule, map and cards are untouched. |
| ScheduleManager.PreparedFacts | src/main/java/com/planner/manager/ScheduleManager.java:489-508 | Reset and archive together keep every task, archive only qualifying tasks, and leave both queues ordered. |
| ScheduleManager.FillNextDay | src/main/java/com/planner/manager/ScheduleManager.java:510-514 | Day i gets id i, the date i days from today and its weekday's hours. The error count never drops, tasks are conserved and the queues stay ordered. |
| ScheduleManager.FillDays | src/main/java/com/planner/manager/ScheduleManager.java:510-515 | At most maxDays days are made, with ids 0, 1, 2, …. The loop ends with no tasks pending or with maxDays days. Day k has weekday hours `week[(DAY_OF_WEEK - 1 + k) % 7]`. Tasks are conserved and the error count stays non-negative. |
| ScheduleManager.BuildSchedule | src/main/java/com/planner/manager/ScheduleManager.java:489-518 | The schedule has dayId days, at most maxDays of them, and none when maxDays is 0. Days are laid out from today with their weekday's hours. The map, cards and id counter are kept. No task is invented. No task is lost while the day budget suffices. Only qualifying tasks are archived. The new pending queue is ordered. |
| ScheduleManager.AddTask | src/main/java/com/planner/manager/ScheduleManager.java:412-421 | The new task gets the current id and all its hours outstanding. The counter advances by one. The task joins the pending queue and the default card's list and is mapped under its id. The archive, schedule, error count, day counter and the other cards stay as they were. |
| ScheduleManager.GetTask | src/main/java/com/planner/manager/ScheduleManager.java:479-484 | Returns the mapped task exactly when the id is mapped, and null (None) otherwise. Under the manager invariant, the task returned carries the id asked for, and that id lies below the id counter. |
| ScheduleManager.GetTaskId | src/main/java/com/planner/manager/ScheduleManager.java:479-484 | Under the invariant, no id at or above the id counter finds a task. |
| ScheduleManager.GetTaskDistinct | src/main/java/com/planner/manager/ScheduleManager.java:479-484 | Under the invariant, two different ids never find the same task. |
| ScheduleManager.AddThenGet | src/main/java/com/planner/manager/ScheduleManager.java:412-421 | addTask keeps the invariant. The new id was free, now finds the new task, and every other id finds what it found before. |
| ScheduleManager.AddTwice | src/main/java/com/planner/manager/ScheduleManager.java:412-416 | Successive tasks get consecutive, strictly increasing ids. |
| ScheduleManager.AddCreatedTask | src/main/java/com/planner/manager/ScheduleManager.java:423-427 | addTask(Task) queues the task and maps it under the counter minus one, replacing whatever that key held (the last task created by `addTask(name, …)`). The counter, archive, schedule, error count, day counter and the other cards stay as they were. |
| ScheduleManager.AddCreatedTaskInv | src/main/java/com/planner/manager/ScheduleManager.java:423-427 | addTask(Task) keeps the invariant exactly when the task's id is the counter minus one. |
| ScheduleManager.RemoveTask | src/main/java/com/planner/manager/ScheduleManager.java:444-453 | Returns true exactly when a record of the task is pending, whatever hours it has been allocated, and otherwise changes nothing. One queued record leaves the queue. The map entry under the task's id goes exactly when it holds the same task; no other entry changes. Cards, counters, archive and schedule are kept. |
| ScheduleManager.RemoveTaskBag | src/main/java/com/planner/manager/ScheduleManager.java:444-453 | removeTask takes exactly one copy of the task out of the pending tasks counted up to allocations, so a task pending once is no longer pending. |
| ScheduleManager.RemoveMappedTask | src/main/java/com/planner/manager/ScheduleManager.java:444-453 | A task read back with getTask is removed, together with its map entry, even when its queued record carries allocated hours. |
| ScheduleManager.RemoveTaskInv | src/main/java/com/planner/manager/ScheduleManager.java:444-453 | removeTask keeps the invariant. |
| ScheduleManager.AddThenRemove | src/main/java/com/planner/manager/ScheduleManager.java:412-453 | Removing the task just added succeeds and restores the pending tasks, counted up to allocations, and the map. |
| ScheduleManager.AddThenRemoveFresh | src/main/java/com/planner/manager/ScheduleManager.java:412-453 | When no record of the new task was pending before, removing it restores the pending queue's exact contents. |
| ScheduleManager.EditTask | src/main/java/com/planner/manager/ScheduleManager.java:463-471 | Returns null with no change exactly when no record of the task is pending, hours <= 0 or incrementation < 0. Otherwise the queue keeps its length, one copy of the old task leaves its contents and a same-named task with the new hours and due date takes its place under a fresh id. The old map entry goes as in removeTask and the new task is mapped under its id. The new id joins the default card. The archive, schedule, error count, day counter and the other cards are kept. |
| ScheduleManager.EditTaskInv | src/main/java/com/planner/manager/ScheduleManager.java:463-471 | editTask keeps the invariant, and the replacement task is found under its id. |
| ScheduleManager.AddTaskToCard | src/main/java/com/planner/manager/ScheduleManager.java:429-436 | Returns false with no change exactly when the card already lists the task. Afterwards a card other than the default one lists the task, appended on success. Cards other than the target and the default card are untouched, and so are the queues, map, schedule and counters. |
| ScheduleManager.AddTaskToCardMoves | src/main/java/com/planner/manager/ScheduleManager.java:429-436 | For a non-default card, the task ends up listed there. On success one listing of it leaves the default card, and a second call refuses. |
| ScheduleManager.AddTaskToDefaultCard | src/main/java/com/planner/manager/ScheduleManager.java:429-436 | On the default card a new task is added and then removed again: the call reports success and changes nothing. |
| PrintState.IndentedPrint | src/main/java/com/agile/planner/scripter/functional/PrintState.java:120-125 | For a line of spaces and tabs followed by `print:`, the scan starts right after the colon. |
| PrintState.VerifyString | src/main/java/com/agile/planner/scripter/functional/PrintState.java:115-142 | Returns a string exactly when, after the prefix, the line holds blanks, then a quoted literal, then only spaces, tabs or line ends. The result is exactly the characters between the two quotes, so it contains no quote. |
| PrintState.LiteralUnique | src/main/java/com/agile/planner/scripter/functional/PrintState.java:126-138 | A line holds at most one such literal. |
| PrintState.NoLiteralBeforeQuote | src/main/java/com/agile/planner/scripter/functional/PrintState.java:133-134 | A character other than a blank or a quote before the opening quote rules the line out. |
| PrintState.EmptyQuotes | src/main/java/com/agile/planner/scripter/functional/PrintState.java:140-141 | `print: ""` yields the empty string, not null. |
| TaskState.ParseInt | src/agile/planner/scripter/TaskState.java:24-25 | An accepted token's value fits in 32 bits, and the empty token is rejected. |
| TaskState.ParseShow | src/agile/planner/scripter/TaskState.java:24-25 | Every 32-bit value, written in decimal, parses back to itself. |
| TaskState.ParseRejects | src/agile/planner/scripter/TaskState.java:24-31 | A non-digit anywhere but a leading sign makes the token not a number. |
| TaskState.ProcessFunc | src/agile/planner/scripter/TaskState.java:19-32 | Succeeds exactly when there are at least three tokens and both numbers parse; otherwise it raises InvalidGrammarException with the usage message and the list is unchanged. On success the list grows by one task, with id lastTaskId + size (taken before the append), the given name, hours and due date. The printed id equals that id. |
| TaskState.ProcessFuncNumbered | src/agile/planner/scripter/TaskState.java:23-26 | Consecutive statements give the script's tasks consecutive, distinct ids. |
| TaskState.ProcessFuncAccepts | src/agile/planner/scripter/TaskState.java:22-28 | Any statement whose numbers are 32-bit decimals succeeds and creates exactly that task. |

## Left out

- Event logging (`eventLog.*`, `scriptLog.*`) and console output have no effect on the model.
- Configuration loading, singletons, JBin and Google Calendar file I/O, and string rendering are not part of this model.
- `addEventToSchedule`/`addEventsToSchedule` are not part of this model. They are driven by `Calendar` arithmetic, and the `Event` class is not part of this model.
- The rest of `importJBinFile` (reading and parsing the file) is not part of this model. Only its archive loop and the id reset are modelled.
- `CompactScheduler.correctSchedule` is a stub that returns false.
- `DynamicScheduler` is not part of this model. Its tests serve only as evidence for how spare hours are counted.
- `Day.addSubTaskManually` is a parameter (`accept`) because the `Day` class is not part of this model. Its effect on success is modelled by `Days.Allocate`.
- `Task.compareTo` is assumed to order by due date. `PriorityQueue` does not specify the order among equal due dates, and the model puts a newcomer after equal ones.
- Tasks are values. The Java objects are shared between the queue, the map and the cards, so hours allocated to a queued task also show through the map; the model does not carry that aliasing.
- ScheduleManager.RemoveTask: `contains` and `remove` find a Java task object by identity, and that object keeps its identity while hours are allocated to it. The model finds a task by its record up to allocated hours (`Tasks.Holds`, `Tasks.SameTask`). So a task read back with `getTask` is still found after a build has allocated hours to its queued copy. Two distinct Java objects with the same id, name, hours and due date are not told apart. `Task.equals` is not part of this model. The same holds for `ScheduleManager.EditTask`, which decides through the same test.
- Cards list task ids, and `addTaskToCard` takes the card as an index into the card list. Cards outside that list are not modelled.
- `Time.differenceOfDays(due, date) > 0` is read as "due after the day". Due dates and day dates are whole days.
- The clock's day of the month is a parameter (`dayOfMonth`). Calendar month arithmetic is not modelled.
- `State.processArguments` is not part of this model. `processFunc` takes the already split tokens, and fewer than three tokens count as a failure, since the index error would be caught by the same handler.
- TaskState.ParseInt: `Integer.parseInt` accepts non-ASCII Unicode digits. The model accepts only `0`–`9`.
- Any exception thrown by the `Task` constructor is not modelled, because the `Task` class is not part of this model.
- Task and day ids are unbounded integers. The 32-bit wrap-around of `taskId++` is not modelled.
- ScheduleManager.BuildSchedule: states that the error count is non-negative, not that it is the exact sum of the failures of every day; the per-day sum is stated by `CompactScheduler.AssignDayLog`.
- ScheduleManager.BuildSchedule: tasks still pending when maxDays is reached drop out of the queue, because the code replaces the pending queue with `complete`. The contract states task conservation as "at most" and as equality only while fewer than maxDays days exist.
- ScheduleManager.BuildSchedule: a negative maxDays and a week with fewer than seven entries make the source throw (`new ArrayList<>(maxDays)` at ScheduleManager.java:495 and `getWeek()[idx++ % 7]` at ScheduleManager.java:511), after `resetSchedule` has already run. The model excludes both through `Days.ValidConfig` in its requires instead of modelling the exception.
- ScheduleManager.BuildSchedule: it runs the corrected pre-archive loop (`ScheduleManager.PreArchive`). When the queue's head qualifies, the source's loop at ScheduleManager.java:502-508 throws NoSuchElementException, while the model returns normally; see Findings.
- PrintState.VerifyString: counts positions in characters (Unicode scalar values), while Java's `charAt` and `length()` count UTF-16 code units. The results agree on every line whose first `Start(line)` characters lie in the Basic Multilingual Plane, for instance blanks followed by `print:`. They can differ when a supplementary character comes before the offset.
- ScheduleManager.FillDays: states why the day loop ends (no task pending, or maxDays days); it does not state that every day was opened while work remained.
- CompactScheduler.AssignDay: the loop-exit condition is stated on `CompactScheduler.FillDayExit`, not at the level of `AssignDay`.

## Findings

| source | as written | input that shows it | evidently intended | confidence | as-written member | corrected member |
|---|---|---|---|---|---|---|
| src/main/java/com/planner/manager/ScheduleManager.java:502-508 | `head` is read once, before the loop, and never re-read. If the first task qualifies, every iteration archives the next task until `remove()` on the empty queue throws NoSuchElementException. | A pending queue with one task due ten days before today, on a different day of the month. | Re-read `head` after every removal, so that only the run of qualifying tasks at the head is archived. | not executed | ScheduleManager.PreArchiveAsWrittenThrows | ScheduleManager.PreArchive |

The counterexample is proved as `ScheduleManager.PreArchiveCounterexample`.
`ScheduleManager.PreArchiveAgrees` shows that the two versions coincide
whenever the head does not qualify. `ScheduleManager.BuildSchedule` uses the
corrected version.

=== FILE: compact_scheduler.dfy ===
/** CompactScheduler: fills one day greedily from the earliest-due task on. */
module CompactScheduler {
  import opened Tasks
  import opened Days

  /** Whether Day.addSubTaskManually(task, hours) succeeds. The Day class is
      not part of this model, so its acceptance rule is a parameter. */
  type Accept = (Day, Task, real) -> bool

  function Min(a: real, b: real): (r: real)
  {
    if a <= b then a else b
  }

  function Max(a: int, b: int): (r: int)
  {
    if a >= b then a else b
  }

  /** Same calendar date as the clock (DATE, MONTH and YEAR all equal). */
  predicate IsToday(now: Clock, day: Day)
  {
    now.day == day.date
  }

  /** The hour the day's work starts at: the configured start, or the
      current hour when the day is today and that is later. */
  function StartingHour(cfg: Config, day: Day, now: Clock): (h: int)
    ensures h >= cfg.rangeStart
    ensures IsToday(now, day) ==> h >= now.hour && (h == cfg.rangeStart || h == now.hour)
    ensures !IsToday(now, day) ==> h == cfg.rangeStart
  {
    if IsToday(now, day) then Max(cfg.rangeStart, now.hour) else cfg.rangeStart
  }

  /** getMaxHours: how many hours `task` may take on `day`. */
  function MaxHours(cfg: Config, day: Day, task: Task, now: Clock): (r: real)
    // never more than the task needs, never negative
    ensures cfg.minHours >= 0.0 && task.remaining >= 0.0 ==> 0.0 <= r <= task.remaining
    // work not due on the day stays within the day's spare hours ...
    ensures task.due != day.date ==> r <= Spare(day)
    // ... and, today, within the working-hours window left
    ensures task.due != day.date && IsToday(now, day) ==>
              r == 0.0 || r <= cfg.rangeEnd as real - (StartingHour(cfg, day, now) as real + day.filled)
    // with fitDay, due work stays before midnight
    ensures task.due == day.date && cfg.fitDay ==>
              r == 0.0 || r <= 24.0 - (StartingHour(cfg, day, now) as real + day.filled)
    // without fitDay, due work is asked for in full
    ensures task.due == day.date && !cfg.fitDay ==> r == task.remaining
    // the minimum-chunk clamp: nothing, a worthwhile chunk, or the whole rest
    ensures r == 0.0 || r >= cfg.minHours || r == task.remaining
    // greedy on a future day: as much as fits
    ensures task.due != day.date && !IsToday(now, day) ==>
              r == 0.0 || r == task.remaining || r == Spare(day)
  {
    var start := StartingHour(cfg, day, now) as real;
    var raw :=
      if task.due == day.date then
        if cfg.fitDay then
          var window := 24.0 - (start + day.filled);
          var m := Min(window, task.remaining);
          // trims half an hour at the end of the day once past the half hour
          if window - m < 1.0 && now.minute >= 30 then m - 0.5 else m
        else task.remaining
      else if IsToday(now, day) then
        var window := cfg.rangeEnd as real - (start + day.filled);
        if window > 0.0 && Spare(day) > 0.0 then Min(Spare(day), Min(window, task.remaining)) else 0.0
      else Min(Spare(day), task.remaining);
    if raw < cfg.minHours && task.remaining > raw then 0.0 else raw
  }

  /** One scheduling action (what eventLog.reportDayAction reports): the task
      as it stands after the attempt, the hours asked for and whether the
      day accepted them. */
  datatype Action = Action(task: Task, hours: real, ok: bool)

  /** Number of rejected allocations in a log. */
  function Failures(log: seq<Action>): (n: nat)
    ensures n <= |log|
  {
    if |log| == 0 then 0
    else Failures(log[..|log| - 1]) + (if log[|log| - 1].ok then 0 else 1)
  }

  /** A task leaves the pending queue for good on its due day or once done. */
  predicate Settled(t: Task, date: int)
  {
    t.due == date || t.remaining == 0.0
  }

  /** A rejected allocation of work due after the day ends the day's loop. */
  predicate Stops(a: Action, date: int)
  {
    !a.ok && a.task.due > date
  }

  /** The loop guard: work is pending and the day has room, or the next task
      is due on the day itself. */
  predicate Continue(day: Day, pending: seq<Task>)
  {
    |pending| > 0 && (HasSpare(day) || pending[0].due == day.date)
  }

  /** The state of assignDay's loop: the day, the running error count, the
      tasks routed to `complete` so far, the local `incomplete` buffer, the
      pending queue and the actions taken. */
  datatype Fill = Fill(day: Day, errors: int, done: seq<Task>, incomplete: seq<Task>,
                       pending: seq<Task>, log: seq<Action>)

  predicate ValidFill(s: Fill)
  {
    AllValid(s.pending) && AllValid(s.done) && AllValid(s.incomplete)
  }

  /** One iteration of the loop: pop the head, allocate, route, count. */
  function Step(cfg: Config, accept: Accept, now: Clock, s: Fill): (r: Fill)
    requires |s.pending| > 0
    ensures r.pending == s.pending[1..]
    ensures |r.log| == |s.log| + 1 && r.log[..|s.log|] == s.log
    ensures r.day.id == s.day.id && r.day.date == s.day.date && r.day.capacity == s.day.capacity
    ensures |r.done| + |r.incomplete| == |s.done| + |s.incomplete| + 1
  {
    var hours := MaxHours(cfg, s.day, s.pending[0], now);
    Advance(s, hours, accept(s.day, s.pending[0], hours))
  }

  /** The iteration once the hours and the day's verdict are known. */
  function Advance(s: Fill, hours: real, ok: bool): (r: Fill)
    requires |s.pending| > 0
    ensures r.pending == s.pending[1..]
    ensures |r.log| == |s.log| + 1 && r.log[..|s.log|] == s.log
    ensures r.day.id == s.day.id && r.day.date == s.day.date && r.day.capacity == s.day.capacity
    ensures |r.done| + |r.incomplete| == |s.done| + |s.incomplete| + 1
  {
    var task := s.pending[0];
    var after := if ok then task.(remaining := task.remaining - hours) else task;
    var settled := Settled(after, s.day.date);
    Fill(if ok then Allocate(s.day, task.id, hours) else s.day,
         s.errors + (if ok then 0 else 1),
         if settled then s.done + [after] else s.done,
         if settled then s.incomplete else s.incomplete + [after],
         s.pending[1..],
         s.log + [Action(after, hours, ok)])
  }

  /** What one iteration does to the day, the task and the error count. */
  lemma StepAccounting(cfg: Config, accept: Accept, now: Clock, s: Fill)
    requires |s.pending| > 0
    ensures var r := Step(cfg, accept, now, s); var a := r.log[|s.log|];
      && SameTask(a.task, s.pending[0])
      && a.hours == MaxHours(cfg, s.day, s.pending[0], now)
      && a.ok == accept(s.day, s.pending[0], a.hours)
      && Failures(r.log) == Failures(s.log) + (if a.ok then 0 else 1)
      && r.errors == s.errors + (if a.ok then 0 else 1)
      // an accepted allocation moves the hours from the task onto the day
      && (a.ok ==> a.task.remaining == s.pending[0].remaining - a.hours
                   && r.day.filled == s.day.filled + a.hours
                   && r.day.subtasks == s.day.subtasks + [SubTask(a.task.id, a.hours)])
      // a rejected one changes neither
      && (!a.ok ==> a.task == s.pending[0] && r.day == s.day)
      && (Consistent(s.day) ==> Consistent(r.day))
  {
    var r := Step(cfg, accept, now, s);
    assert r.log[..|r.log| - 1] == s.log;
  }

  /** The action recorded is about the task popped. */
  lemma StepIdentity(cfg: Config, accept: Accept, now: Clock, s: Fill)
    requires |s.pending| > 0
    ensures SameTask(Step(cfg, accept, now, s).log[|s.log|].task, s.pending[0])
  {
  }

  /** Where one iteration routes the popped task. */
  lemma StepRouting(cfg: Config, accept: Accept, now: Clock, s: Fill)
    requires |s.pending| > 0
    ensures var r := Step(cfg, accept, now, s); var a := r.log[|s.log|];
      && (Settled(a.task, s.day.date) ==> r.done == s.done + [a.task] && r.incomplete == s.incomplete)
      && (!Settled(a.task, s.day.date) ==> r.incomplete == s.incomplete + [a.task] && r.done == s.done)
      && r.errors == s.errors + (if a.ok then 0 else 1)
  {
  }

  /** One iteration neither loses nor invents a task. */
  lemma StepConserves(cfg: Config, accept: Accept, now: Clock, s: Fill)
    requires |s.pending| > 0
    ensures var r := Step(cfg, accept, now, s);
      Bag(s.pending) + Bag(s.done) + Bag(s.incomplete) == Bag(r.pending) + Bag(r.done) + Bag(r.incomplete)
  {
    var r := Step(cfg, accept, now, s);
    var after := r.log[|s.log|].task;
    StepIdentity(cfg, accept, now, s);
    StepRouting(cfg, accept, now, s);
    assert s.pending == [s.pending[0]] + s.pending[1..];
    BagConcat([s.pending[0]], s.pending[1..]);
    BagSingle(s.pending[0]);
    BagSingle(after);
    BagConcat(s.done, [after]);
    BagConcat(s.incomplete, [after]);
  }

  /** Without fitDay, due work the day accepts is finished on it. */
  lemma StepForcedCompletion(cfg: Config, accept: Accept, now: Clock, s: Fill)
    requires |s.pending| > 0 && s.pending[0].due == s.day.date && !cfg.fitDay
    requires accept(s.day, s.pending[0], s.pending[0].remaining)
    ensures var r := Step(cfg, accept, now, s);
      r.log[|s.log|].ok && r.log[|s.log|].task.remaining == 0.0 && r.done == s.done + [r.log[|s.log|].task]
  {
    StepAccounting(cfg, accept, now, s);
  }

  /** Allocation keeps every task's hours within 0 .. total. */
  lemma StepValid(cfg: Config, accept: Accept, now: Clock, s: Fill)
    requires |s.pending| > 0 && cfg.minHours >= 0.0 && ValidFill(s)
    ensures ValidFill(Step(cfg, accept, now, s))
  {
    var r := Step(cfg, accept, now, s);
    StepAccounting(cfg, accept, now, s);
    StepRouting(cfg, accept, now, s);
    var a := r.log[|s.log|];
    assert s.pending[0].Valid();
    assert a.task.Valid();
  }

  /** assignDay's first loop, from state `s` until the guard fails or a
      rejected allocation of later work stops it. */
  function FillDay(cfg: Config, accept: Accept, now: Clock, s: Fill): (r: Fill)
    decreases |s.pending|
    // the loop pops a prefix of the queue, one action per task popped
    ensures |r.pending| <= |s.pending| && r.pending == s.pending[|s.pending| - |r.pending|..]
    ensures |r.log| == |s.log| + (|s.pending| - |r.pending|) && r.log[..|s.log|] == s.log
    ensures Continue(s.day, s.pending) ==> |r.log| > |s.log|
    ensures |r.done| + |r.incomplete| == |s.done| + |s.incomplete| + (|s.pending| - |r.pending|)
    ensures r.day.id == s.day.id && r.day.date == s.day.date && r.day.capacity == s.day.capacity
  {
    if !Continue(s.day, s.pending) then s
    else
      var s' := Step(cfg, accept, now, s);
      if Stops(s'.log[|s.log|], s.day.date) then s'
      else FillDay(cfg, accept, now, s')
  }

  /** The loop never ends right after an action that does not stop it ... */
  lemma {:induction false} FillDayStops(cfg: Config, accept: Accept, now: Clock, s: Fill)
    ensures var r := FillDay(cfg, accept, now, s);
      NoStopBetween(r.log, |s.log|, |r.log| - 1, s.day.date)
    decreases |s.pending|
  {
    if Continue(s.day, s.pending) {
      var s' := Step(cfg, accept, now, s);
      if !Stops(s'.log[|s.log|], s.day.date) {
        FillDayStops(cfg, accept, now, s');
        var r := FillDay(cfg, accept, now, s');
        assert FillDay(cfg, accept, now, s) == r;
        assert r.log[|s.log|] == s'.log[|s.log|] by {
          assert r.log[..|s'.log|] == s'.log;
        }
        NoStopExtend(r.log, |s.log|, |r.log| - 1, s.day.date);
      } else {
        assert FillDay(cfg, accept, now, s) == s';
      }
    } else {
      assert FillDay(cfg, accept, now, s) == s;
    }
  }

  /** ... and it ends only when its guard fails or right after a rejected
      allocation of work due after the day. */
  lemma {:induction false} FillDayExit(cfg: Config, accept: Accept, now: Clock, s: Fill)
    ensures Exited(FillDay(cfg, accept, now, s), |s.log|, s.day.date)
    decreases |s.pending|
  {
    if Continue(s.day, s.pending) {
      var s' := Step(cfg, accept, now, s);
      if !Stops(s'.log[|s.log|], s.day.date) {
        FillDayExit(cfg, accept, now, s');
        var r := FillDay(cfg, accept, now, s');
        assert FillDay(cfg, accept, now, s) == r;
        assert Exited(r, |s'.log|, s.day.date);
        assert |s'.log| > |s.log|;
      } else {
        assert FillDay(cfg, accept, now, s) == s';
        assert s'.log[|s'.log| - 1] == s'.log[|s.log|];
      }
    } else {
      assert FillDay(cfg, accept, now, s) == s;
    }
  }

  /** The loop's state `r` is one it may end in: its guard fails, or the last
      of the actions beyond the first `n` stopped it. */
  predicate Exited(r: Fill, n: nat, date: int)
  {
    !Continue(r.day, r.pending) || (|r.log| > n && Stops(r.log[|r.log| - 1], date))
  }

  /** No entry of `log` in from .. to-1 is a stopping action. */
  predicate NoStopBetween(log: seq<Action>, from: int, to: int, date: int)
  {
    forall i :: from <= i < to && 0 <= i < |log| ==> !Stops(log[i], date)
  }

  lemma NoStopExtend(log: seq<Action>, from: int, to: int, date: int)
    requires 0 <= from < |log| && !Stops(log[from], date)
    requires NoStopBetween(log, from + 1, to, date)
    ensures NoStopBetween(log, from, to, date)
  {
  }

  /** Each action is about the task popped at that point. */
  lemma {:induction false} FillDayIdentity(cfg: Config, accept: Accept, now: Clock, s: Fill)
    ensures var r := FillDay(cfg, accept, now, s);
      Tracks(r.log, |s.log|, s.pending, |s.pending| - |r.pending|)
    decreases |s.pending|
  {
    if Continue(s.day, s.pending) {
      var s' := Step(cfg, accept, now, s);
      StepIdentity(cfg, accept, now, s);
      if !Stops(s'.log[|s.log|], s.day.date) {
        FillDayIdentity(cfg, accept, now, s');
        var r := FillDay(cfg, accept, now, s');
        assert FillDay(cfg, accept, now, s) == r;
        TracksCons(r.log, |s.log|, s.pending, |s.pending| - |r.pending|, s'.log);
      } else {
        assert FillDay(cfg, accept, now, s) == s';
      }
    }
  }

  /** Entries `from ..` of `log` are about the first `n` tasks of `q`. */
  predicate Tracks(log: seq<Action>, from: nat, q: seq<Task>, n: nat)
  {
    from + n <= |log| && n <= |q| &&
    forall i :: 0 <= i < n ==> SameTask(log[from + i].task, q[i])
  }

  lemma TracksCons(log: seq<Action>, from: nat, q: seq<Task>, n: nat, prefix: seq<Action>)
    requires 0 < n <= |q| && |prefix| == from + 1 && |prefix| <= |log| && log[..|prefix|] == prefix
    requires SameTask(prefix[from].task, q[0])
    requires Tracks(log, from + 1, q[1..], n - 1)
    ensures Tracks(log, from, q, n)
  {
    assert log[from] == prefix[from];
    forall i | 1 <= i < n ensures SameTask(log[from + i].task, q[i]) {
      assert q[i] == q[1..][i - 1];
      assert from + i == (from + 1) + (i - 1);
    }
  }

  /** The error count grows by exactly the rejected allocations, and the
      day's accounting stays consistent. */
  lemma {:induction false} FillDayErrors(cfg: Config, accept: Accept, now: Clock, s: Fill)
    ensures var r := FillDay(cfg, accept, now, s);
      && r.errors - Failures(r.log) == s.errors - Failures(s.log)
      && (Consistent(s.day) ==> Consistent(r.day))
    decreases |s.pending|
  {
    if Continue(s.day, s.pending) {
      var s' := Step(cfg, accept, now, s);
      StepAccounting(cfg, accept, now, s);
      if !Stops(s'.log[|s.log|], s.day.date) {
        FillDayErrors(cfg, accept, now, s');
        assert FillDay(cfg, accept, now, s) == FillDay(cfg, accept, now, s');
      } else {
        assert FillDay(cfg, accept, now, s) == s';
      }
    }
  }

  /** The queue the loop routes tasks of Settled status `settled` to. */
  function Part(s: Fill, settled: bool): (r: seq<Task>)
  {
    if settled then s.done else s.incomplete
  }

  /** Routing: settled tasks go to `done`, the others to `incomplete`;
      both only ever grow at the end. */
  lemma {:induction false} FillDayRouting(cfg: Config, accept: Accept, now: Clock, s: Fill, settled: bool)
    ensures Routed(Part(s, settled), Part(FillDay(cfg, accept, now, s), settled), s.day.date, settled)
    decreases |s.pending|
  {
    if Continue(s.day, s.pending) {
      var s' := Step(cfg, accept, now, s);
      StepRouting(cfg, accept, now, s);
      assert Routed(Part(s, settled), Part(s', settled), s.day.date, settled);
      if !Stops(s'.log[|s.log|], s.day.date) {
        FillDayRouting(cfg, accept, now, s', settled);
        var r := FillDay(cfg, accept, now, s');
        assert FillDay(cfg, accept, now, s) == r;
        RoutedTrans(Part(s, settled), Part(s', settled), Part(r, settled), s.day.date, settled);
      } else {
        assert FillDay(cfg, accept, now, s) == s';
      }
    }
  }

  /** `b` extends `a` at the end with tasks whose Settled status is `settled`. */
  predicate Routed(a: seq<Task>, b: seq<Task>, date: int, settled: bool)
  {
    && |a| <= |b|
    && (forall i :: 0 <= i < |a| ==> b[i] == a[i])
    && (forall i :: |a| <= i < |b| ==> Settled(b[i], date) == settled)
  }

  lemma RoutedTrans(a: seq<Task>, b: seq<Task>, c: seq<Task>, date: int, settled: bool)
    requires Routed(a, b, date, settled) && Routed(b, c, date, settled)
    ensures Routed(a, c, date, settled)
  {
    forall i | |a| <= i < |b| ensures Settled(c[i], date) == settled {
      assert c[i] == b[i];
    }
  }

  /** Task conservation: no task is lost or invented by the loop. */
  lemma {:induction false} FillDayConserves(cfg: Config, accept: Accept, now: Clock, s: Fill)
    ensures var r := FillDay(cfg, accept, now, s);
      Bag(s.pending) + Bag(s.done) + Bag(s.incomplete) == Bag(r.pending) + Bag(r.done) + Bag(r.incomplete)
    decreases |s.pending|
  {
    if Continue(s.day, s.pending) {
      var s' := Step(cfg, accept, now, s);
      StepConserves(cfg, accept, now, s);
      if !Stops(s'.log[|s.log|], s.day.date) {
        FillDayConserves(cfg, accept, now, s');
        assert FillDay(cfg, accept, now, s) == FillDay(cfg, accept, now, s');
      } else {
        assert FillDay(cfg, accept, now, s) == s';
      }
    }
  }

  /** The loop keeps every task's hours within 0 .. total. */
  lemma {:induction false} FillDayValid(cfg: Config, accept: Accept, now: Clock, s: Fill)
    requires cfg.minHours >= 0.0 && ValidFill(s)
    ensures ValidFill(FillDay(cfg, accept, now, s))
    decreases |s.pending|
  {
    if Continue(s.day, s.pending) {
      var s' := Step(cfg, accept, now, s);
      StepValid(cfg, accept, now, s);
      if !Stops(s'.log[|s.log|], s.day.date) {
        FillDayValid(cfg, accept, now, s');
        assert FillDay(cfg, accept, now, s) == FillDay(cfg, accept, now, s');
      } else {
        assert FillDay(cfg, accept, now, s) == s';
      }
    }
  }

  /** The outcome of assignDay: the filled day, the updated error count, the
      completed and pending queues, and the actions taken. */
  datatype Assigned = Assigned(day: Day, errors: int, complete: seq<Task>, pending: seq<Task>,
                               log: seq<Action>)

  function InitialFill(day: Day, errorCount: int, pending: seq<Task>): (r: Fill)
  {
    Fill(day, errorCount, [], [], pending, [])
  }

  /** CompactScheduler.assignDay: fill `day` from `pending`, then put the
      tasks left incomplete back into the pending queue. */
  function AssignDay(cfg: Config, accept: Accept, now: Clock, day: Day, errorCount: int,
                     complete: seq<Task>, pending: seq<Task>): (r: Assigned)
    // one action per iteration, at most one iteration per pending task
    ensures |r.log| <= |pending|
    ensures Continue(day, pending) ==> |r.log| > 0
    ensures |r.pending| <= |pending|
    ensures r.day.id == day.id && r.day.date == day.date && r.day.capacity == day.capacity
  {
    var f := FillDay(cfg, accept, now, InitialFill(day, errorCount, pending));
    Assigned(f.day, f.errors, InsertAll(complete, f.done), InsertAll(f.pending, f.incomplete), f.log)
  }

  /** assignDay's log: one action per popped task, in queue order; the
      count grows by exactly the rejected allocations; only the last action
      can be the one that stopped the loop. */
  lemma AssignDayLog(cfg: Config, accept: Accept, now: Clock, day: Day, errorCount: int,
                     complete: seq<Task>, pending: seq<Task>)
    ensures var r := AssignDay(cfg, accept, now, day, errorCount, complete, pending);
      && Tracks(r.log, 0, pending, |r.log|)
      && r.errors == errorCount + Failures(r.log)
      && r.errors >= errorCount
      && NoStopBetween(r.log, 0, |r.log| - 1, day.date)
      && (Consistent(day) ==> Consistent(r.day))
  {
    var s := InitialFill(day, errorCount, pending);
    FillDayStops(cfg, accept, now, s);
    FillDayIdentity(cfg, accept, now, s);
    FillDayErrors(cfg, accept, now, s);
  }

  /** assignDay neither loses nor invents a task. */
  lemma AssignDayConserves(cfg: Config, accept: Accept, now: Clock, day: Day, errorCount: int,
                           complete: seq<Task>, pending: seq<Task>)
    ensures var r := AssignDay(cfg, accept, now, day, errorCount, complete, pending);
      && Bag(pending) + Bag(complete) == Bag(r.pending) + Bag(r.complete)
      && |r.pending| + |r.complete| == |pending| + |complete|
  {
    var s := InitialFill(day, errorCount, pending);
    var f := FillDay(cfg, accept, now, s);
    var r := AssignDay(cfg, accept, now, day, errorCount, complete, pending);
    FillDayConserves(cfg, accept, now, s);
    InsertAllBag(complete, f.done);
    InsertAllBag(f.pending, f.incomplete);
    assert Bag([]) == multiset{};
    Regroup(Bag(pending), Bag(complete), Bag(f.pending), Bag(f.done), Bag(f.incomplete),
            Bag(r.pending), Bag(r.complete));
  }

  lemma Regroup<T>(p: multiset<T>, c: multiset<T>, rest: multiset<T>, done: multiset<T>,
                   incomplete: multiset<T>, p': multiset<T>, c': multiset<T>)
    requires p == rest + done + incomplete
    requires p' == rest + incomplete && c' == c + done
    ensures p + c == p' + c'
  {
  }

  /** `after` holds every task of `before`, and whatever it holds beyond them
      has Settled status `settled` on `date`. */
  predicate Extends(before: seq<Task>, after: seq<Task>, date: int, settled: bool)
  {
    && multiset(before) <= multiset(after)
    && forall t :: t in multiset(after) - multiset(before) ==> Settled(t, date) == settled
  }

  /** What assignDay adds to `complete` is settled on the day. */
  lemma AssignDayCompleteSettled(cfg: Config, accept: Accept, now: Clock, day: Day, errorCount: int,
                                 complete: seq<Task>, pending: seq<Task>)
    ensures var r := AssignDay(cfg, accept, now, day, errorCount, complete, pending);
      Extends(complete, r.complete, day.date, true)
  {
    var s := InitialFill(day, errorCount, pending);
    var f := FillDay(cfg, accept, now, s);
    FillDayRouting(cfg, accept, now, s, true);
    AddedSettled(complete, f.done, day.date, true);
  }

  /** What assignDay puts back into the pending queue is the tasks it never
      popped plus popped tasks that are not settled on the day. */
  lemma AssignDayPendingUnsettled(cfg: Config, accept: Accept, now: Clock, day: Day, errorCount: int,
                                  complete: seq<Task>, pending: seq<Task>)
    ensures var r := AssignDay(cfg, accept, now, day, errorCount, complete, pending);
      Extends(pending[|r.log|..], r.pending, day.date, false)
  {
    FillDayPutBack(cfg, accept, now, InitialFill(day, errorCount, pending));
  }

  lemma FillDayPutBack(cfg: Config, accept: Accept, now: Clock, s: Fill)
    requires s.incomplete == [] && s.log == []
    ensures var f := FillDay(cfg, accept, now, s);
      Extends(s.pending[|f.log|..], InsertAll(f.pending, f.incomplete), s.day.date, false)
  {
    var f := FillDay(cfg, accept, now, s);
    FillDayRouting(cfg, accept, now, s, false);
    AddedSettledFrom(s.pending[|f.log|..], f.pending, f.incomplete, s.day.date, false);
  }

  lemma AddedSettledFrom(p: seq<Task>, q: seq<Task>, ts: seq<Task>, date: int, settled: bool)
    requires p == q && Routed([], ts, date, settled)
    ensures Extends(p, InsertAll(q, ts), date, settled)
  {
    AddedSettled(q, ts, date, settled);
  }

  /** Inserting tasks of one Settled status adds only tasks of that status. */
  lemma AddedSettled(q: seq<Task>, ts: seq<Task>, date: int, settled: bool)
    requires forall i :: 0 <= i < |ts| ==> Settled(ts[i], date) == settled
    ensures Extends(q, InsertAll(q, ts), date, settled)
  {
    InsertAllMultiset(q, ts);
    assert multiset(InsertAll(q, ts)) - multiset(q) == multiset(ts);
    forall t | t in multiset(ts) ensures Settled(t, date) == settled {
      var j :| 0 <= j < |ts| && ts[j] == t;
    }
  }

  /** assignDay keeps both queues ordered by due date. */
  lemma AssignDaySorted(cfg: Config, accept: Accept, now: Clock, day: Day, errorCount: int,
                        complete: seq<Task>, pending: seq<Task>)
    requires Sorted(pending) && Sorted(complete)
    ensures var r := AssignDay(cfg, accept, now, day, errorCount, complete, pending);
      Sorted(r.pending) && Sorted(r.complete)
  {
    var s := InitialFill(day, errorCount, pending);
    var f := FillDay(cfg, accept, now, s);
    SuffixSorted(pending, |pending| - |f.pending|);
    InsertAllSortedQueue(complete, f.done);
    InsertAllSortedQueue(f.pending, f.incomplete);
  }

  lemma SuffixSorted(q: seq<Task>, k: nat)
    requires Sorted(q) && k <= |q|
    ensures Sorted(q[k..])
  {
    forall a, b | 0 <= a < b < |q| - k ensures q[k..][a].due <= q[k..][b].due {
      assert q[k..][a] == q[k + a] && q[k..][b] == q[k + b];
    }
  }

  /** assignDay keeps every task's hours within 0 .. total. */
  lemma AssignDayValid(cfg: Config, accept: Accept, now: Clock, day: Day, errorCount: int,
                       complete: seq<Task>, pending: seq<Task>)
    requires cfg.minHours >= 0.0 && AllValid(pending) && AllValid(complete)
    ensures var r := AssignDay(cfg, accept, now, day, errorCount, complete, pending);
      AllValid(r.pending) && AllValid(r.complete)
  {
    var s := InitialFill(day, errorCount, pending);
    var f := FillDay(cfg, accept, now, s);
    FillDayValid(cfg, accept, now, s);
    InsertAllMultiset(complete, f.done);
    InsertAllMultiset(f.pending, f.incomplete);
    ValidMultiset(complete, f.done, InsertAll(complete, f.done));
    ValidMultiset(f.pending, f.incomplete, InsertAll(f.pending, f.incomplete));
  }

  lemma ValidMultiset(a: seq<Task>, b: seq<Task>, c: seq<Task>)
    requires AllValid(a) && AllValid(b) && multiset(c) == multiset(a) + multiset(b)
    ensures AllValid(c)
  {
    forall i | 0 <= i < |c| ensures c[i].Valid() {
      assert c[i] in multiset(c);
      if c[i] in multiset(a) {
        var j :| 0 <= j < |a| && a[j] == c[i];
      } else {
        assert c[i] in multiset(b);
        var j :| 0 <= j < |b| && b[j] == c[i];
      }
    }
  }
}

=== FILE: days.dfy ===
/** Days of the schedule, the clock reading a build runs against, and the
    scheduling part of the user configuration. */
module Days {

  /** One allocation of hours from a task into a day (Task.SubTask). */
  datatype SubTask = SubTask(taskId: int, hours: real)

  /** A day of the schedule: sequential id, date as a day index, hour budget
      for its weekday, hours filled so far and the allocations made. */
  datatype Day = Day(id: int, date: int, capacity: int, filled: real, subtasks: seq<SubTask>)

  /** java.util.Calendar as the scheduler reads it: the day index, the
      weekday as Calendar.DAY_OF_WEEK (1 = Sunday .. 7 = Saturday), and the
      hour of day and minute. */
  datatype Clock = Clock(day: int, weekday: int, hour: int, minute: int)

  /** The fields of UserConfig the scheduler reads: hours per weekday (index
      0 = Sunday), the working-hours window [rangeStart, rangeEnd] used for
      "today", the minimum worthwhile chunk, the horizon in days and the
      fit-day switch. */
  datatype Config = Config(week: seq<int>, rangeStart: int, rangeEnd: int, minHours: real,
                           maxDays: int, fitDay: bool)

  /** What buildSchedule needs of the user configuration to return at all:
      getWeek() is indexed modulo 7, so it needs at least seven entries (any
      beyond the seventh are never read), and maxDays
      is the initial capacity of an ArrayList, so it must not be negative. */
  predicate ValidConfig(cfg: Config)
  {
    |cfg.week| >= 7 && cfg.maxDays >= 0
  }

  /** What java.util.Calendar guarantees about its fields. */
  predicate ValidClock(now: Clock)
  {
    1 <= now.weekday <= 7 && 0 <= now.hour < 24 && 0 <= now.minute < 60
  }

  /** new Day(id, hours, dayCount): empty day `dayCount` days from today. */
  function NewDay(id: int, capacity: int, date: int): (d: Day)
    ensures Consistent(d)
    ensures d.filled == 0.0 && d.subtasks == []
  {
    Day(id, date, capacity, 0.0, [])
  }

  /** Total hours of a list of allocations. */
  function HoursOf(subtasks: seq<SubTask>): (r: real)
  {
    if |subtasks| == 0 then 0.0
    else HoursOf(subtasks[..|subtasks| - 1]) + subtasks[|subtasks| - 1].hours
  }

  /** The day accounting invariant: filled hours are the sum of allocations. */
  predicate Consistent(d: Day)
  {
    d.filled == HoursOf(d.subtasks)
  }

  /** Day.getSpareHours(): never negative, even once the day is over-filled
      by work that is due on it. */
  function Spare(d: Day): (r: real)
    ensures r >= 0.0
    ensures r == 0.0 <==> d.filled >= d.capacity as real
    ensures r > 0.0 ==> d.filled + r == d.capacity as real
  {
    if d.capacity as real - d.filled > 0.0 then d.capacity as real - d.filled else 0.0
  }

  /** Day.hasSpareHours(). */
  predicate HasSpare(d: Day)
  {
    Spare(d) > 0.0
  }

  /** The effect of a successful Day.addSubTaskManually(task, hours) on the
      day: the allocation is recorded and the day fills by `hours`. */
  function Allocate(d: Day, taskId: int, hours: real): (r: Day)
    ensures Consistent(d) ==> Consistent(r)
    ensures r.filled - d.filled == hours
    ensures r.id == d.id && r.date == d.date && r.capacity == d.capacity
    ensures |r.subtasks| == |d.subtasks| + 1 && r.subtasks[..|d.subtasks|] == d.subtasks
    ensures r.subtasks[|d.subtasks|] == SubTask(taskId, hours)
  {
    var r := d.(filled := d.filled + hours, subtasks := d.subtasks + [SubTask(taskId, hours)]);
    assert r.subtasks[..|r.subtasks| - 1] == d.subtasks;
    r
  }
}

=== FILE: print_state.dfy ===
/** PrintState.verifyString: recognise `print: "literal"` and extract the
    literal. */
module PrintState {
  import opened Wrappers

  /** The characters the scan skips before the opening quote. */
  predicate IsBlank(c: char)
  {
    c == ' ' || c == '\t'
  }

  /** The characters allowed after the closing quote. */
  predicate IsTrailing(c: char)
  {
    c == ' ' || c == '\t' || c == '\n' || c == '\r'
  }

  /** The number of spaces and tabs before the first 'p' of the line (all of
      them when there is none): the indentation of `print:`. */
  function LeadBlanks(s: string): (n: nat)
    ensures n <= |s|
  {
    if |s| == 0 then 0
    else if IsBlank(s[0]) then 1 + LeadBlanks(s[1..])
    else if s[0] == 'p' then 0
    else LeadBlanks(s[1..])
  }

  /** Where the search for the literal starts: past the indentation and the
      six characters of `print:`. */
  function Start(line: string): (r: nat)
  {
    LeadBlanks(line) + 6
  }

  /** For an indented `print:` line the search starts right after the colon. */
  lemma {:induction false} IndentedPrint(w: string, rest: string)
    requires forall k :: 0 <= k < |w| ==> IsBlank(w[k])
    ensures LeadBlanks(w + "print:" + rest) == |w|
    ensures (w + "print:" + rest)[..Start(w + "print:" + rest)] == w + "print:"
  {
    if |w| > 0 {
      IndentedPrint(w[1..], rest);
      assert (w + "print:" + rest)[1..] == w[1..] + "print:" + rest;
    }
  }

  /** `line` holds a literal between quotes at `b` and `e`: only blanks
      between the start of the search and `b`, no quote between `b` and `e`,
      and only blanks or line ends after `e`. */
  predicate IsLiteral(line: string, start: int, b: int, e: int)
  {
    && 0 <= start <= b < e < |line|
    && line[b] == '"' && line[e] == '"'
    && (forall k :: start <= k < b ==> IsBlank(line[k]))
    && (forall k :: b < k < e ==> line[k] != '"')
    && (forall k :: e < k < |line| ==> IsTrailing(line[k]))
  }

  /** A line holds at most one literal. */
  lemma LiteralUnique(line: string, start: int, b: int, e: int, b': int, e': int)
    requires IsLiteral(line, start, b, e) && IsLiteral(line, start, b', e')
    ensures b == b' && e == e'
  {
  }

  /** verifyString: the literal of a `print: "..."` line, or None (null). */
  method VerifyString(line: string) returns (r: Option<string>)
    ensures r.Some? <==> exists b, e :: IsLiteral(line, Start(line), b, e)
    ensures forall b, e :: IsLiteral(line, Start(line), b, e) ==> r == Some(line[b + 1..e])
    ensures r.Some? ==> '"' !in r.value
  {
    var quoteBegin := false;
    var quoteEnd := false;
    var beginIdx := 0;
    var endIdx := 0;
    var i := 0;
    while i < |line|
      invariant 0 <= i <= |line|
      invariant beginIdx + LeadBlanks(line[i..]) == LeadBlanks(line)
    {
      if IsBlank(line[i]) {
        beginIdx := beginIdx + 1;
      } else if line[i] == 'p' {
        break;
      }
      assert line[i..][1..] == line[i + 1..];
      i := i + 1;
    }
    beginIdx := beginIdx + 6;
    var start := beginIdx;
    assert start == Start(line);
    i := beginIdx;
    while i < |line|
      invariant start <= i && (i <= |line| || i == start)
      invariant !quoteBegin ==> beginIdx == start && forall k :: start <= k < i ==> IsBlank(line[k])
      invariant quoteBegin ==> start <= beginIdx < i && line[beginIdx] == '"'
      invariant quoteBegin ==> forall k :: start <= k < beginIdx ==> IsBlank(line[k])
      invariant quoteBegin && !quoteEnd ==> forall k :: beginIdx < k < i ==> line[k] != '"'
      invariant !quoteEnd ==> endIdx == 0
      invariant quoteEnd ==> quoteBegin && beginIdx < endIdx < i && line[endIdx] == '"'
      invariant quoteEnd ==> forall k :: beginIdx < k < endIdx ==> line[k] != '"'
      invariant quoteEnd ==> forall k :: endIdx < k < i ==> IsTrailing(line[k])
    {
      if !quoteBegin && line[i] == '"' {
        quoteBegin := true;
        beginIdx := i;
      } else if !quoteEnd && line[i] == '"' {
        quoteEnd := true;
        endIdx := i;
      } else if !quoteBegin && !IsBlank(line[i]) {
        NoLiteralBeforeQuote(line, start, i);
        return None;
      } else if quoteEnd && !IsTrailing(line[i]) {
        forall b, e | IsLiteral(line, start, b, e) ensures false {
          LiteralUnique(line, start, b, e, beginIdx, endIdx);
        }
        return None;
      }
      i := i + 1;
    }
    if beginIdx >= endIdx {
      return None;
    }
    assert IsLiteral(line, start, beginIdx, endIdx);
    forall b, e | IsLiteral(line, start, b, e) ensures b == beginIdx && e == endIdx {
      LiteralUnique(line, start, b, e, beginIdx, endIdx);
    }
    r := Some(line[beginIdx + 1..endIdx]);
  }

  /** A character that is neither blank nor a quote, met before any quote,
      rules out every literal. */
  lemma NoLiteralBeforeQuote(line: string, start: int, i: int)
    requires 0 <= start <= i < |line| && line[i] != '"' && !IsBlank(line[i])
    requires forall k :: start <= k < i ==> IsBlank(line[k])
    ensures forall b, e :: !IsLiteral(line, start, b, e)
  {
  }

  /** `print: ""` holds the empty literal: the result is the empty string,
      not None. */
  lemma EmptyQuotes()
    ensures Start("print: \"\"") == 6
    ensures IsLiteral("print: \"\"", 6, 7, 8) && "print: \"\""[8..8] == ""
  {
    IndentedPrint("", " \"\"");
    assert "" + "print:" + " \"\"" == "print: \"\"";
  }
}

=== FILE: schedule_manager.dfy ===
/** ScheduleManager: owns the task queues, the task map, the cards and the
    built schedule, and drives the scheduler one day at a time. */
module ScheduleManager {
  import opened Wrappers
  import opened Tasks
  import opened Days
  import opened CompactScheduler

  /** A Kanban card; it lists its tasks by id. */
  datatype Card = Card(id: int, title: string, tasks: seq<int>)

  /** The exception of java.util.PriorityQueue the model can reach. */
  datatype Exception = NoSuchElement

  /** The manager's state: pending and archived queues, the id-to-task map,
      the cards (card 0 is the default card), the built schedule, the error
      count and the task and day id counters. */
  datatype Manager = Manager(pending: seq<Task>, archived: seq<Task>, taskMap: map<int, Task>,
                             cards: seq<Card>, schedule: seq<Day>, errorCount: int,
                             taskId: int, dayId: int)

  /** What the manager keeps true between calls: the default card exists,
      the queues are ordered and every mapped task sits under its own id,
      below the id counter. */
  predicate Inv(m: Manager)
  {
    && |m.cards| > 0
    && Sorted(m.pending)
    && Sorted(m.archived)
    && (forall id :: id in m.taskMap ==> id < m.taskId && m.taskMap[id].id == id)
  }

  // ---------------------------------------------------------------- reset

  /** resetSchedule: clear the schedule, pop every pending task in queue
      order, reset its hours and add it to a fresh queue; zero the error
      count and the day counter. */
  function ResetSchedule(m: Manager): (r: Manager)
    ensures r.schedule == [] && r.errorCount == 0 && r.dayId == 0
    ensures r.archived == m.archived && r.taskMap == m.taskMap && r.cards == m.cards
    ensures r.taskId == m.taskId
    ensures |r.pending| == |m.pending|
  {
    m.(schedule := [], pending := InsertAll([], Resets(m.pending)), errorCount := 0, dayId := 0)
  }

  /** A reset queue holds the same tasks, with their allocations undone. */
  lemma ResetScheduleKeeps(m: Manager)
    ensures multiset(ResetSchedule(m).pending) == Bag(m.pending)
    ensures Bag(ResetSchedule(m).pending) == Bag(m.pending)
  {
    InsertAllMultiset([], Resets(m.pending));
    InsertAllBag([], Resets(m.pending));
    ResetsTwice(m.pending);
    assert Bag([]) == multiset{};
  }

  /** After a reset every pending task has its full hours outstanding. */
  lemma ResetScheduleFresh(m: Manager)
    ensures var r := ResetSchedule(m);
      forall i :: 0 <= i < |r.pending| ==> r.pending[i].remaining == r.pending[i].total as real
  {
    var r := ResetSchedule(m);
    ResetScheduleKeeps(m);
    forall i | 0 <= i < |r.pending| ensures r.pending[i].remaining == r.pending[i].total as real {
      assert r.pending[i] in multiset(r.pending);
      var j :| 0 <= j < |m.pending| && Resets(m.pending)[j] == r.pending[i];
    }
  }

  /** The reset queue is ordered by due date. */
  lemma ResetScheduleSorted(m: Manager)
    ensures Sorted(ResetSchedule(m).pending)
  {
    InsertAllSortedQueue([], Resets(m.pending));
  }

  /** An ordered queue comes back task for task in the same order. */
  lemma ResetScheduleSameOrder(m: Manager)
    requires Sorted(m.pending)
    ensures ResetSchedule(m).pending == Resets(m.pending)
  {
    assert [] + Resets(m.pending) == Resets(m.pending);
    InsertAllSorted([], Resets(m.pending));
  }

  lemma ResetScheduleInv(m: Manager)
    requires Inv(m)
    ensures Inv(ResetSchedule(m))
  {
    ResetScheduleSorted(m);
  }

  // ------------------------------------------------------ past-due archive

  /** The tasks the pre-build archive removes: due on an earlier day whose
      day of the month also differs from today's (a task due today counts as
      earlier than the clock once midnight has passed, so the day-of-month
      guard keeps it). */
  predicate Qualifies(t: Task, now: Clock, dayOfMonth: int -> int)
  {
    t.due < now.day && dayOfMonth(t.due) != dayOfMonth(now.day)
  }

  datatype Queues = Queues(pending: seq<Task>, archived: seq<Task>)

  /** buildSchedule's archive loop AS WRITTEN: `head` is read once and never
      re-read, so once it qualifies every iteration removes another task
      until remove() on the empty queue throws. */
  function ArchiveLoopAsWritten(head: Option<Task>, q: Queues, now: Clock,
                                dayOfMonth: int -> int): (r: Result<Queues, Exception>)
    decreases |q.pending|
    ensures r.Ok? ==> r.value == q
  {
    if head.Some? && Qualifies(head.value, now, dayOfMonth) then
      if |q.pending| == 0 then Err(NoSuchElement)
      else ArchiveLoopAsWritten(head, Queues(q.pending[1..], Insert(q.archived, q.pending[0])),
                                now, dayOfMonth)
    else Ok(q)
  }

  function PreArchiveAsWritten(q: Queues, now: Clock, dayOfMonth: int -> int): (r: Result<Queues, Exception>)
  {
    var head := if |q.pending| > 0 then Some(q.pending[0]) else None;
    ArchiveLoopAsWritten(head, q, now, dayOfMonth)
  }

  /** As written, a qualifying head makes the loop drain the whole queue
      and throw. */
  lemma {:induction false} ArchiveLoopThrows(head: Task, q: Queues, now: Clock, dayOfMonth: int -> int)
    requires Qualifies(head, now, dayOfMonth)
    ensures ArchiveLoopAsWritten(Some(head), q, now, dayOfMonth) == Err(NoSuchElement)
    decreases |q.pending|
  {
    if |q.pending| > 0 {
      ArchiveLoopThrows(head, Queues(q.pending[1..], Insert(q.archived, q.pending[0])), now, dayOfMonth);
    }
  }

  /** The loop as written throws exactly when the head of the queue
      qualifies; otherwise it archives nothing. */
  lemma PreArchiveAsWrittenThrows(q: Queues, now: Clock, dayOfMonth: int -> int)
    ensures PreArchiveAsWritten(q, now, dayOfMonth).Err?
        <==> |q.pending| > 0 && Qualifies(q.pending[0], now, dayOfMonth)
    ensures PreArchiveAsWritten(q, now, dayOfMonth).Ok? ==> PreArchiveAsWritten(q, now, dayOfMonth) == Ok(q)
  {
    if |q.pending| > 0 && Qualifies(q.pending[0], now, dayOfMonth) {
      ArchiveLoopThrows(q.pending[0], q, now, dayOfMonth);
    }
  }

  /** One past-due task, due ten days before today, is enough: the loop as
      written throws where the corrected loop archives it. */
  lemma PreArchiveCounterexample()
    ensures var t := NewTask(0, "A", 2, 0);
      var q := Queues([t], []);
      var now := Clock(10, 2, 9, 0);
      && PreArchiveAsWritten(q, now, d => d) == Err(NoSuchElement)
      && PreArchive(q, now, d => d) == Queues([], [t])
  {
    var t := NewTask(0, "A", 2, 0);
    var q := Queues([t], []);
    var now := Clock(10, 2, 9, 0);
    PreArchiveAsWrittenThrows(q, now, d => d);
    assert QualifyingPrefix(q.pending, now, d => d) == 1;
    assert InsertAll([], [t]) == InsertAll(Insert([], t), []);
  }

  /** Length of the run of qualifying tasks at the head of the queue. */
  function QualifyingPrefix(q: seq<Task>, now: Clock, dayOfMonth: int -> int): (k: nat)
    ensures k <= |q|
    ensures forall i :: 0 <= i < k ==> Qualifies(q[i], now, dayOfMonth)
    ensures k < |q| ==> !Qualifies(q[k], now, dayOfMonth)
  {
    if |q| == 0 || !Qualifies(q[0], now, dayOfMonth) then 0
    else 1 + QualifyingPrefix(q[1..], now, dayOfMonth)
  }

  /** The archive loop with `head` re-read after every removal: it moves the
      qualifying run at the head of the queue, in order, into the archive. */
  function PreArchive(q: Queues, now: Clock, dayOfMonth: int -> int): (r: Queues)
    ensures |r.pending| <= |q.pending|
    ensures |r.pending| > 0 ==> !Qualifies(r.pending[0], now, dayOfMonth)
  {
    var k := QualifyingPrefix(q.pending, now, dayOfMonth);
    Queues(q.pending[k..], InsertAll(q.archived, q.pending[..k]))
  }

  /** The corrected archive loses no task and keeps them as they were. */
  lemma PreArchiveKeeps(q: Queues, now: Clock, dayOfMonth: int -> int)
    ensures var r := PreArchive(q, now, dayOfMonth);
      && multiset(r.pending) + multiset(r.archived) == multiset(q.pending) + multiset(q.archived)
      && Bag(r.pending) + Bag(r.archived) == Bag(q.pending) + Bag(q.archived)
  {
    var k := QualifyingPrefix(q.pending, now, dayOfMonth);
    InsertAllMultiset(q.archived, q.pending[..k]);
    InsertAllBag(q.archived, q.pending[..k]);
    SplitAt(q.pending, k);
    BagSplit(q.pending, k);
  }

  /** Only qualifying tasks are archived, and only the qualifying run at the
      head: the task left at the head does not qualify. */
  lemma PreArchiveOnlyQualifying(q: Queues, now: Clock, dayOfMonth: int -> int)
    ensures var r := PreArchive(q, now, dayOfMonth);
      && (forall t :: t in multiset(r.archived) - multiset(q.archived) ==> Qualifies(t, now, dayOfMonth))
      && (forall i :: 0 <= i < |q.pending| - |r.pending| ==> Qualifies(q.pending[i], now, dayOfMonth))
      && r.pending == q.pending[|q.pending| - |r.pending|..]
  {
    var k := QualifyingPrefix(q.pending, now, dayOfMonth);
    InsertAllMultiset(q.archived, q.pending[..k]);
    forall t | t in multiset(q.pending[..k]) ensures Qualifies(t, now, dayOfMonth) {
      var i :| 0 <= i < k && q.pending[..k][i] == t;
    }
  }

  lemma PreArchiveSorted(q: Queues, now: Clock, dayOfMonth: int -> int)
    ensures var r := PreArchive(q, now, dayOfMonth);
      && (Sorted(q.pending) ==> Sorted(r.pending))
      && (Sorted(q.archived) ==> Sorted(r.archived))
  {
    var k := QualifyingPrefix(q.pending, now, dayOfMonth);
    if Sorted(q.pending) {
      SuffixSorted(q.pending, k);
    }
    if Sorted(q.archived) {
      InsertAllSortedQueue(q.archived, q.pending[..k]);
    }
  }

  /** Where the head does not qualify, the loop as written and the corrected
      loop agree. */
  lemma PreArchiveAgrees(q: Queues, now: Clock, dayOfMonth: int -> int)
    requires |q.pending| == 0 || !Qualifies(q.pending[0], now, dayOfMonth)
    ensures PreArchiveAsWritten(q, now, dayOfMonth) == Ok(PreArchive(q, now, dayOfMonth))
  {
    PreArchiveAsWrittenThrows(q, now, dayOfMonth);
    assert QualifyingPrefix(q.pending, now, dayOfMonth) == 0;
    assert q.pending[0..] == q.pending;
  }

  // ------------------------------------------------------- import archive

  /** Length of the run of tasks due before `today` at the head of the queue. */
  function PastPrefix(q: seq<Task>, today: int): (k: nat)
    ensures k <= |q|
    ensures forall i :: 0 <= i < k ==> q[i].due < today
    ensures k < |q| ==> q[k].due >= today
  {
    if |q| == 0 || q[0].due >= today then 0 else 1 + PastPrefix(q[1..], today)
  }

  /** importJBinFile's archive loop: pop tasks due before `today` into the
      archive; the first task that is not is added back and the loop stops. */
  function ArchivePast(q: Queues, today: int): (r: Queues)
    ensures |r.pending| <= |q.pending|
  {
    var k := PastPrefix(q.pending, today);
    Queues(PutBack(q.pending, k), InsertAll(q.archived, q.pending[..k]))
  }

  /** What is left once `k` tasks have been popped and the next one popped
      and added back. */
  function PutBack(p: seq<Task>, k: nat): (r: seq<Task>)
    requires k <= |p|
    ensures multiset(r) == multiset(p[k..])
  {
    if k < |p| then
      assert p[k..] == [p[k]] + p[k + 1..];
      Insert(p[k + 1..], p[k])
    else []
  }

  lemma ArchivePastKeeps(q: Queues, today: int)
    ensures var r := ArchivePast(q, today);
      multiset(r.pending) + multiset(r.archived) == multiset(q.pending) + multiset(q.archived)
  {
    var k := PastPrefix(q.pending, today);
    InsertAllMultiset(q.archived, q.pending[..k]);
    SplitAt(q.pending, k);
  }

  /** Exactly the tasks due before `today` at the head of the queue are
      archived. */
  lemma ArchivePastOnlyPast(q: Queues, today: int)
    ensures var r := ArchivePast(q, today);
      && (forall t :: t in multiset(r.archived) - multiset(q.archived) ==> t.due < today)
      && (forall i :: 0 <= i < |q.pending| - |r.pending| ==> q.pending[i].due < today)
  {
    var k := PastPrefix(q.pending, today);
    InsertAllMultiset(q.archived, q.pending[..k]);
    forall t | t in multiset(q.pending[..k]) ensures t.due < today {
      var i :| 0 <= i < k && q.pending[..k][i] == t;
    }
  }

  /** On an ordered queue nothing past due stays pending. */
  lemma ArchivePastNothingPast(q: Queues, today: int)
    requires Sorted(q.pending)
    ensures var r := ArchivePast(q, today);
      forall i :: 0 <= i < |r.pending| ==> r.pending[i].due >= today
  {
    var k := PastPrefix(q.pending, today);
    if k < |q.pending| {
      var rest := q.pending[k + 1..];
      assert forall j :: 0 <= j < |rest| ==> rest[j] == q.pending[k + 1 + j];
      InsertBound(rest, q.pending[k], today);
      assert ArchivePast(q, today).pending == Insert(rest, q.pending[k]);
    }
  }

  lemma ArchivePastSortedPending(q: Queues, today: int)
    requires Sorted(q.pending)
    ensures Sorted(ArchivePast(q, today).pending)
  {
    var k := PastPrefix(q.pending, today);
    if k < |q.pending| {
      SuffixSorted(q.pending, k + 1);
      InsertSorted(q.pending[k + 1..], q.pending[k]);
    }
  }

  lemma ArchivePastSortedArchived(q: Queues, today: int)
    requires Sorted(q.archived)
    ensures Sorted(ArchivePast(q, today).archived)
  {
    InsertAllSortedQueue(q.archived, q.pending[..PastPrefix(q.pending, today)]);
  }

  /** The archiving done by importJBinFile once the file is read, followed by
      its reset of the task id counter to the pending count. */
  function ImportArchive(m: Manager, today: int): (r: Manager)
    ensures r.schedule == m.schedule && r.taskMap == m.taskMap && r.cards == m.cards
    ensures r.taskId == |r.pending| && |r.pending| <= |m.pending|
  {
    var q := ArchivePast(Queues(m.pending, m.archived), today);
    m.(pending := q.pending, archived := q.archived, taskId := |q.pending|)
  }

  // -------------------------------------------------------- build schedule

  /** The queues buildSchedule works on after its reset and its (corrected)
      past-due archive. */
  function Prepared(m: Manager, now: Clock, dayOfMonth: int -> int): (r: Queues)
  {
    var m0 := ResetSchedule(m);
    PreArchive(Queues(m0.pending, m0.archived), now, dayOfMonth)
  }

  /** The reset and archive stages keep every task, archive only what
      qualifies and leave both queues ordered. */
  lemma PreparedFacts(m: Manager, now: Clock, dayOfMonth: int -> int)
    ensures var q := Prepared(m, now, dayOfMonth);
      && Bag(q.pending) + Bag(q.archived) == Bag(m.pending) + Bag(m.archived)
      && (forall t :: t in multiset(q.archived) - multiset(m.archived) ==> Qualifies(t, now, dayOfMonth))
      && Sorted(q.pending)
      && (Sorted(m.archived) ==> Sorted(q.archived))
  {
    var m0 := ResetSchedule(m);
    ResetScheduleKeeps(m);
    ResetScheduleSorted(m);
    PreArchiveKeeps(Queues(m0.pending, m0.archived), now, dayOfMonth);
    PreArchiveOnlyQualifying(Queues(m0.pending, m0.archived), now, dayOfMonth);
    PreArchiveSorted(Queues(m0.pending, m0.archived), now, dayOfMonth);
  }

  /** Day `d` is the `i`-th day of a schedule built from `now`: id `i`, the
      date `i` days from today, the hours of its weekday counted on from
      today's, and allocations that add up. */
  predicate DayAt(cfg: Config, now: Clock, i: int, d: Day)
    requires ValidConfig(cfg) && ValidClock(now) && i >= 0
  {
    && d.id == i
    && d.date == now.day + i
    && d.capacity == cfg.week[(now.weekday - 1 + i) % 7]
    && Consistent(d)
  }

  /** One iteration of buildSchedule's day loop: open day `i` (id `i`, date
      `i` days from today, the hours of its weekday) and let the scheduler
      fill it from `pending`. */
  method FillNextDay(cfg: Config, accept: Accept, now: Clock, i: int, errors: int,
                     complete: seq<Task>, pending: seq<Task>) returns (a: Assigned)
    requires ValidConfig(cfg) && ValidClock(now) && i >= 0
    requires Sorted(pending) && Sorted(complete)
    ensures DayAt(cfg, now, i, a.day)
    ensures a.errors >= errors
    ensures Bag(a.pending) + Bag(a.complete) == Bag(pending) + Bag(complete)
    ensures Sorted(a.pending) && Sorted(a.complete)
  {
    var day := NewDay(i, cfg.week[(now.weekday - 1 + i) % 7], now.day + i);
    a := AssignDay(cfg, accept, now, day, errors, complete, pending);
    AssignDayLog(cfg, accept, now, day, errors, complete, pending);
    AssignDayConserves(cfg, accept, now, day, errors, complete, pending);
    AssignDaySorted(cfg, accept, now, day, errors, complete, pending);
  }

  /** buildSchedule: reset, archive what is past due, then open one day
      after another from today, each with its weekday's hours, and let the
      scheduler fill it, while tasks are pending and fewer than maxDays days
      exist; the completed queue becomes the pending queue. */
  method BuildSchedule(cfg: Config, accept: Accept, now: Clock, dayOfMonth: int -> int, m: Manager)
    returns (r: Manager)
    requires ValidConfig(cfg) && ValidClock(now)
    ensures |r.schedule| == r.dayId && r.dayId <= cfg.maxDays
    ensures cfg.maxDays == 0 ==> r.schedule == []
    ensures forall i :: 0 <= i < |r.schedule| ==> DayAt(cfg, now, i, r.schedule[i])
    ensures r.taskMap == m.taskMap && r.cards == m.cards && r.taskId == m.taskId
    ensures r.errorCount >= 0
    // no task is lost while the day budget suffices; past it, the tasks
    // still pending drop out of the queue
    ensures Bag(r.pending) + Bag(r.archived) <= Bag(m.pending) + Bag(m.archived)
    ensures |r.schedule| < cfg.maxDays ==> Bag(r.pending) + Bag(r.archived) == Bag(m.pending) + Bag(m.archived)
    ensures forall t :: t in multiset(r.archived) - multiset(m.archived) ==> Qualifies(t, now, dayOfMonth)
    ensures Sorted(r.pending) && (Sorted(m.archived) ==> Sorted(r.archived))
  {
    var q := Prepared(m, now, dayOfMonth);
    PreparedFacts(m, now, dayOfMonth);
    var schedule, errors, complete, left := FillDays(cfg, accept, now, q.pending);
    r := m.(schedule := schedule, errorCount := errors, pending := complete,
            archived := q.archived, dayId := |schedule|);
    Chain(Bag(m.pending) + Bag(m.archived), Bag(q.pending), Bag(q.archived), Bag(left), Bag(complete));
  }

  /** The multiset algebra of buildSchedule's stages: the archive stage
      splits the tasks, the day loop splits the pending part again, and the
      loop's leftover is what is dropped. */
  lemma Chain<T>(all: multiset<T>, qp: multiset<T>, qa: multiset<T>, left: multiset<T>, done: multiset<T>)
    requires qp + qa == all && left + done == qp
    ensures done + qa <= all
    ensures left == multiset{} ==> done + qa == all
  {
  }

  /** buildSchedule's day loop: while tasks are pending and fewer than
      maxDays days exist, open the next day and let the scheduler fill it.
      The loop's weekday index and day offset always equal today's weekday
      index plus the day id and the day id, so days are opened from the id. */
  method FillDays(cfg: Config, accept: Accept, now: Clock, tasks: seq<Task>)
    returns (schedule: seq<Day>, errors: int, complete: seq<Task>, pending: seq<Task>)
    requires ValidConfig(cfg) && ValidClock(now) && Sorted(tasks)
    ensures |schedule| <= cfg.maxDays
    ensures |pending| == 0 || |schedule| >= cfg.maxDays
    ensures forall i :: 0 <= i < |schedule| ==> DayAt(cfg, now, i, schedule[i])
    ensures errors >= 0
    ensures Bag(pending) + Bag(complete) == Bag(tasks)
    ensures Sorted(pending) && Sorted(complete)
  {
    schedule, errors, complete, pending := [], 0, [], tasks;
    assert Bag([]) == multiset{};
    while |pending| > 0 && |schedule| < cfg.maxDays
      invariant |schedule| <= cfg.maxDays
      invariant forall i :: 0 <= i < |schedule| ==> DayAt(cfg, now, i, schedule[i])
      invariant errors >= 0
      invariant Bag(pending) + Bag(complete) == Bag(tasks)
      invariant Sorted(pending) && Sorted(complete)
      decreases cfg.maxDays - |schedule|
    {
      var a := FillNextDay(cfg, accept, now, |schedule|, errors, complete, pending);
      schedule := schedule + [a.day];
      errors, complete, pending := a.errors, a.complete, a.pending;
    }
  }

  // ------------------------------------------------------------ task ops

  /** A created task together with the manager after the call. */
  datatype Created = Created(task: Task, manager: Manager)

  /** addTask(name, hours, incrementation): create a task under the next id,
      due `incrementation` days from today, queue it, map it under its id and
      list it on the default card. */
  function AddTask(m: Manager, name: string, hours: int, incrementation: int, today: int): (r: Created)
    requires |m.cards| > 0
    ensures r.task.id == m.taskId && r.task.name == name && r.task.total == hours
    ensures r.task.remaining == hours as real && r.task.due == today + incrementation
    ensures r.manager.taskId == m.taskId + 1
    ensures multiset(r.manager.pending) == multiset(m.pending) + multiset{r.task}
    ensures r.manager.taskMap == m.taskMap[m.taskId := r.task]
    ensures r.manager.archived == m.archived && r.manager.schedule == m.schedule
    ensures r.manager.errorCount == m.errorCount && r.manager.dayId == m.dayId
    ensures |r.manager.cards| == |m.cards| && r.manager.cards[1..] == m.cards[1..]
    ensures r.manager.cards[0].tasks == m.cards[0].tasks + [r.task.id]
  {
    var t := NewTask(m.taskId, name, hours, today + incrementation);
    var c := m.cards[0];
    Created(t, m.(taskId := m.taskId + 1, pending := Insert(m.pending, t),
                  taskMap := m.taskMap[m.taskId := t],
                  cards := m.cards[0 := c.(tasks := c.tasks + [t.id])]))
  }

  /** getTask: the task mapped under `id`, if any. */
  function GetTask(m: Manager, id: int): (r: Option<Task>)
    ensures r.Some? <==> id in m.taskMap
    ensures r.Some? ==> r.value == m.taskMap[id]
    ensures Inv(m) && r.Some? ==> r.value.id == id && id < m.taskId
  {
    if id !in m.taskMap then None else Some(m.taskMap[id])
  }

  /** Under the invariant every task found carries the id it was asked for. */
  lemma GetTaskId(m: Manager, id: int)
    requires Inv(m)
    ensures id >= m.taskId ==> GetTask(m, id) == None
  {
  }

  /** Under the invariant two different ids never find the same task. */
  lemma GetTaskDistinct(m: Manager, a: int, b: int)
    requires Inv(m) && a != b
    ensures GetTask(m, a).Some? && GetTask(m, b).Some? ==> GetTask(m, a).value != GetTask(m, b).value
  {
  }

  /** addTask keeps the invariant; the new task is found under its id, the
      id was free before, and every other id finds what it found before. */
  lemma AddThenGet(m: Manager, name: string, hours: int, incrementation: int, today: int)
    requires Inv(m)
    ensures var r := AddTask(m, name, hours, incrementation, today);
      && Inv(r.manager)
      && GetTask(m, r.task.id) == None
      && GetTask(r.manager, r.task.id) == Some(r.task)
      && (forall id :: id != r.task.id ==> GetTask(r.manager, id) == GetTask(m, id))
  {
    InsertSorted(m.pending, NewTask(m.taskId, name, hours, today + incrementation));
  }

  /** Two tasks added one after the other get consecutive ids. */
  lemma AddTwice(m: Manager, n1: string, h1: int, i1: int, n2: string, h2: int, i2: int, today: int)
    requires |m.cards| > 0
    ensures var a := AddTask(m, n1, h1, i1, today);
      var b := AddTask(a.manager, n2, h2, i2, today);
      b.task.id == a.task.id + 1 && b.manager.taskId == m.taskId + 2
  {
  }

  /** addTask(Task): queue an already created task, map it under the id of
      the last task created (the id counter minus one, not the task's own
      id) and list it on the default card. */
  function AddCreatedTask(m: Manager, t: Task): (r: Manager)
    requires |m.cards| > 0
    ensures multiset(r.pending) == multiset(m.pending) + multiset{t}
    ensures r.taskMap == m.taskMap[m.taskId - 1 := t]
    ensures r.taskId == m.taskId
    ensures |r.cards| == |m.cards| && r.cards[0].tasks == m.cards[0].tasks + [t.id]
    ensures r.cards[1..] == m.cards[1..]
    ensures r.archived == m.archived && r.schedule == m.schedule
    ensures r.errorCount == m.errorCount && r.dayId == m.dayId
  {
    var c := m.cards[0];
    m.(pending := Insert(m.pending, t), taskMap := m.taskMap[m.taskId - 1 := t],
       cards := m.cards[0 := c.(tasks := c.tasks + [t.id])])
  }

  /** Adding a created task keeps the invariant exactly when the task
      carries the id of the last task created, as a task made by the script
      layer does when it is the only one made since; any other id leaves the
      map with an entry under the wrong key. */
  lemma AddCreatedTaskInv(m: Manager, t: Task)
    requires Inv(m)
    ensures Inv(AddCreatedTask(m, t)) <==> t.id == m.taskId - 1
  {
    var r := AddCreatedTask(m, t);
    InsertSorted(m.pending, t);
    if t.id == m.taskId - 1 {
      assert forall id :: id in r.taskMap ==> id < r.taskId && r.taskMap[id].id == id;
    } else {
      assert r.taskMap[m.taskId - 1].id != m.taskId - 1;
    }
  }

  /** The outcome of removeTask: whether it removed anything, and the manager. */
  datatype Removal = Removal(removed: bool, manager: Manager)

  /** removeTask: if the task is pending, drop one record of it from the
      queue and its map entry if the entry holds that same task. The cards
      are left as they are. A task is the same while hours are allocated to
      it, as the Java object is. */
  function RemoveTask(m: Manager, t: Task): (r: Removal)
    ensures r.removed <==> Holds(m.pending, t)
    ensures !r.removed ==> r.manager == m
    ensures r.removed ==> |r.manager.pending| == |m.pending| - 1
    ensures multiset(r.manager.pending) <= multiset(m.pending)
    ensures r.manager.cards == m.cards && r.manager.taskId == m.taskId
    ensures r.manager.archived == m.archived && r.manager.schedule == m.schedule
    ensures r.manager.errorCount == m.errorCount && r.manager.dayId == m.dayId
    ensures r.removed && t.id in m.taskMap && SameTask(m.taskMap[t.id], t) ==> t.id !in r.manager.taskMap
    ensures forall id :: id in r.manager.taskMap ==> id in m.taskMap && r.manager.taskMap[id] == m.taskMap[id]
    ensures forall id :: id in m.taskMap && id !in r.manager.taskMap ==> id == t.id && SameTask(m.taskMap[id], t)
  {
    if Holds(m.pending, t) then
      var map' := if t.id in m.taskMap && SameTask(m.taskMap[t.id], t) then m.taskMap - {t.id} else m.taskMap;
      Removal(true, m.(pending := RemoveSame(m.pending, t), taskMap := map'))
    else Removal(false, m)
  }

  /** removeTask takes exactly one copy of the task out of the queue's
      contents, counted up to allocations; a task pending once is gone. */
  lemma RemoveTaskBag(m: Manager, t: Task)
    ensures var r := RemoveTask(m, t).manager;
      && Bag(r.pending) == Bag(m.pending) - multiset{t.Reset()}
      && (Bag(m.pending)[t.Reset()] <= 1 ==> !Holds(r.pending, t))
  {
    RemoveSameBag(m.pending, t);
    if Bag(m.pending)[t.Reset()] <= 1 {
      RemoveSameGone(m.pending, t);
    }
  }

  lemma RemoveTaskInv(m: Manager, t: Task)
    requires Inv(m)
    ensures Inv(RemoveTask(m, t).manager)
  {
    RemoveSameSorted(m.pending, t);
  }

  /** A task read back with getTask is removed even after the scheduler has
      allocated hours to its queued record, and its map entry goes with it. */
  lemma RemoveMappedTask(m: Manager, id: int)
    requires Inv(m) && id in m.taskMap && Holds(m.pending, m.taskMap[id])
    ensures var r := RemoveTask(m, GetTask(m, id).value);
      && r.removed
      && id !in r.manager.taskMap
      && Inv(r.manager)
  {
    RemoveTaskInv(m, m.taskMap[id]);
  }

  /** Removing the task just added undoes the add on the queue and the map. */
  lemma AddThenRemove(m: Manager, name: string, hours: int, incrementation: int, today: int)
    requires Inv(m)
    ensures var a := AddTask(m, name, hours, incrementation, today);
      var r := RemoveTask(a.manager, a.task);
      && r.removed
      && Bag(r.manager.pending) == Bag(m.pending)
      && r.manager.taskMap == m.taskMap
  {
    var a := AddTask(m, name, hours, incrementation, today);
    AddedHeld(m.pending, a.manager.pending, a.task);
    InsertBag(m.pending, a.task);
    RemoveTaskBag(a.manager, a.task);
    AddThenRemoveMap(m, a.manager, a.task);
  }

  /** When no record of the new task was pending before, removing it gives
      back exactly the queue before the add. */
  lemma AddThenRemoveFresh(m: Manager, name: string, hours: int, incrementation: int, today: int)
    requires Inv(m)
    ensures var a := AddTask(m, name, hours, incrementation, today);
      !Holds(m.pending, a.task) ==>
        multiset(RemoveTask(a.manager, a.task).manager.pending) == multiset(m.pending)
  {
    var a := AddTask(m, name, hours, incrementation, today);
    AddedHeld(m.pending, a.manager.pending, a.task);
    if !Holds(m.pending, a.task) {
      AddThenRemoveQueue(m.pending, a.manager.pending, a.task);
    }
  }

  lemma AddedHeld(q: seq<Task>, added: seq<Task>, t: Task)
    requires multiset(added) == multiset(q) + multiset{t}
    ensures Holds(added, t)
  {
    assert t in multiset(added);
    var i :| 0 <= i < |added| && added[i] == t;
    assert SameTask(added[i], t);
  }

  /** When the queue held no record of `t` before it was added, the record
      removed is the one just added. */
  lemma AddThenRemoveQueue(q: seq<Task>, added: seq<Task>, t: Task)
    requires !Holds(q, t) && Holds(added, t)
    requires multiset(added) == multiset(q) + multiset{t}
    ensures multiset(RemoveSame(added, t)) == multiset(q)
  {
    var u := added[FindSame(added, t)];
    assert u in multiset(added);
    NotHeld(q, u, t);
    var r := RemoveSame(added, t);
    assert multiset(r) + multiset{t} == multiset(q) + multiset{t};
    assert multiset(r) == multiset(r) + multiset{t} - multiset{t};
  }

  /** A queue that holds no record of `t` holds no record equal to `t` up to
      allocations. */
  lemma NotHeld(q: seq<Task>, u: Task, t: Task)
    requires !Holds(q, t) && SameTask(u, t)
    ensures u !in multiset(q)
  {
  }

  lemma AddThenRemoveMap(m: Manager, added: Manager, t: Task)
    requires Inv(m) && t.id == m.taskId && Holds(added.pending, t)
    requires added.taskMap == m.taskMap[m.taskId := t]
    ensures RemoveTask(added, t).manager.taskMap == m.taskMap
  {
    assert m.taskId !in m.taskMap;
    assert RemoveTask(added, t).manager.taskMap == added.taskMap - {m.taskId};
  }

  /** The outcome of editTask: the replacement task, if one was made. */
  datatype Edited = Edited(task: Option<Task>, manager: Manager)

  /** editTask: refuse unless the task is pending, the hours are positive and
      the incrementation is not negative; otherwise remove it and add a new
      task with its name, the new hours and the new due date. */
  function EditTask(m: Manager, t: Task, hours: int, incrementation: int, today: int): (r: Edited)
    requires |m.cards| > 0
    ensures r.task.None? <==> !Holds(m.pending, t) || hours <= 0 || incrementation < 0
    ensures r.task.None? ==> r.manager == m
    ensures r.task.Some? ==>
      && r.task.value.id == m.taskId && r.task.value.name == t.name
      && r.task.value.total == hours && r.task.value.remaining == hours as real
      && r.task.value.due == today + incrementation
      && r.manager.taskId == m.taskId + 1
      && Bag(r.manager.pending) == Bag(m.pending) - multiset{t.Reset()} + multiset{r.task.value}
      && |r.manager.pending| == |m.pending|
      && r.manager.taskMap == RemoveTask(m, t).manager.taskMap[m.taskId := r.task.value]
      && r.manager.archived == m.archived && r.manager.schedule == m.schedule
      && r.manager.errorCount == m.errorCount && r.manager.dayId == m.dayId
      && |r.manager.cards| == |m.cards| && r.manager.cards[1..] == m.cards[1..]
      && r.manager.cards[0].tasks == m.cards[0].tasks + [r.task.value.id]
  {
    if !Holds(m.pending, t) || hours <= 0 || incrementation < 0 then Edited(None, m)
    else
      var removed := RemoveTask(m, t).manager;
      RemoveTaskBag(m, t);
      InsertBag(removed.pending, NewTask(m.taskId, t.name, hours, today + incrementation));
      var a := AddTask(removed, t.name, hours, incrementation, today);
      Edited(Some(a.task), a.manager)
  }

  /** editTask keeps the invariant, and the replacement is found under its
      new id. */
  lemma EditTaskInv(m: Manager, t: Task, hours: int, incrementation: int, today: int)
    requires Inv(m)
    ensures var r := EditTask(m, t, hours, incrementation, today);
      && Inv(r.manager)
      && (r.task.Some? ==> GetTask(r.manager, r.task.value.id) == r.task)
  {
    if Holds(m.pending, t) && hours > 0 && incrementation >= 0 {
      RemoveTaskInv(m, t);
      AddThenGet(RemoveTask(m, t).manager, t.name, hours, incrementation, today);
    }
  }

  /** The outcome of addTaskToCard. */
  datatype Carded = Carded(added: bool, manager: Manager)

  /** addTaskToCard with the card given by its index: refuse if the card
      already lists the task; otherwise list it there and, if the default
      card lists it, drop it from the default card. */
  function AddTaskToCard(m: Manager, t: Task, k: int): (r: Carded)
    requires 0 <= k < |m.cards|
    ensures r.added <==> t.id !in m.cards[k].tasks
    ensures !r.added ==> r.manager == m
    ensures |r.manager.cards| == |m.cards|
    ensures forall j :: 0 <= j < |m.cards| && j != k && j != 0 ==> r.manager.cards[j] == m.cards[j]
    ensures k != 0 ==> t.id in r.manager.cards[k].tasks
    ensures r.added && k != 0 ==> r.manager.cards[k].tasks == m.cards[k].tasks + [t.id]
    ensures r.manager.pending == m.pending && r.manager.taskMap == m.taskMap
    ensures r.manager.archived == m.archived && r.manager.schedule == m.schedule
    ensures r.manager.errorCount == m.errorCount && r.manager.dayId == m.dayId
    ensures r.manager.taskId == m.taskId
  {
    if t.id in m.cards[k].tasks then Carded(false, m)
    else
      var c := m.cards[k];
      var cs := m.cards[k := c.(tasks := c.tasks + [t.id])];
      var d := cs[0];
      var cs' := if t.id in d.tasks then cs[0 := d.(tasks := RemoveFirst(d.tasks, t.id))] else cs;
      Carded(true, m.(cards := cs'))
  }

  /** For a card other than the default one, the task ends up listed there
      and one listing of it leaves the default card; a second call refuses. */
  lemma AddTaskToCardMoves(m: Manager, t: Task, k: int)
    requires 0 < k < |m.cards|
    ensures var r := AddTaskToCard(m, t, k);
      && t.id in r.manager.cards[k].tasks
      && (r.added ==> r.manager.cards[k].tasks == m.cards[k].tasks + [t.id])
      && (r.added ==> multiset(r.manager.cards[0].tasks) == multiset(m.cards[0].tasks) - multiset{t.id})
      && !AddTaskToCard(r.manager, t, k).added
  {
  }

  /** On the default card itself a new task is added and dropped again: the
      call reports success and changes nothing. */
  lemma AddTaskToDefaultCard(m: Manager, t: Task)
    requires 0 < |m.cards|
    ensures var r := AddTaskToCard(m, t, 0);
      r.manager == m && (r.added <==> t.id !in m.cards[0].tasks)
  {
    var c := m.cards[0];
    if t.id !in c.tasks {
      var cs := m.cards[0 := c.(tasks := c.tasks + [t.id])];
      RemoveAppended(c.tasks, t.id);
      assert cs[0 := cs[0].(tasks := RemoveFirst(cs[0].tasks, t.id))] == m.cards;
    }
  }
}

=== FILE: task_state.dfy ===
/** TaskState.processFunc: the `task: name, hours, days` statement of the
    scripting language. */
module TaskState {
  import opened Wrappers
  import opened Tasks

  const MinInt: int := -0x8000_0000
  const MaxInt: int := 0x7FFF_FFFF

  predicate IsDigit(c: char)
  {
    '0' <= c <= '9'
  }

  predicate AllDigits(s: string)
  {
    forall k :: 0 <= k < |s| ==> IsDigit(s[k])
  }

  /** The value of a run of decimal digits, most significant first. */
  function DigitsValue(s: string): (v: nat)
    requires AllDigits(s)
  {
    if |s| == 0 then 0
    else DigitsValue(s[..|s| - 1]) * 10 + (s[|s| - 1] as int - '0' as int)
  }

  /** Integer.parseInt: an optional sign, at least one digit, and a value
      that fits in 32 bits; anything else is a NumberFormatException (None). */
  function ParseInt(s: string): (r: Option<int>)
    ensures r.Some? ==> MinInt <= r.value <= MaxInt
    ensures |s| == 0 ==> r.None?
  {
    var signed := |s| > 0 && (s[0] == '-' || s[0] == '+');
    var digits := if signed then s[1..] else s;
    if |digits| == 0 || !AllDigits(digits) then None
    else
      var v: int := if signed && s[0] == '-' then -(DigitsValue(digits) as int) else DigitsValue(digits);
      if MinInt <= v <= MaxInt then Some(v) else None
  }

  /** Decimal digits of a natural number, no leading zeros. */
  function Digits(v: nat): (s: string)
    ensures |s| > 0 && AllDigits(s)
  {
    if v < 10 then [('0' as int + v) as char]
    else Digits(v / 10) + [('0' as int + v % 10) as char]
  }

  /** Integer.toString. */
  function Show(n: int): (r: string)
  {
    if n < 0 then "-" + Digits(-n) else Digits(n)
  }

  lemma {:induction false} DigitsRoundTrip(v: nat)
    ensures DigitsValue(Digits(v)) == v
  {
    if v >= 10 {
      DigitsRoundTrip(v / 10);
      var s := Digits(v);
      assert s[..|s| - 1] == Digits(v / 10);
    }
  }

  /** Parsing what Integer.toString prints gives the number back, for every
      32-bit value. */
  lemma ParseShow(n: int)
    requires MinInt <= n <= MaxInt
    ensures ParseInt(Show(n)) == Some(n)
  {
    var s := Show(n);
    if n < 0 {
      DigitsRoundTrip(-n);
      assert s[0] == '-' && s[1..] == Digits(-n);
    } else {
      DigitsRoundTrip(n);
      assert s == Digits(n) && IsDigit(s[0]);
    }
  }

  /** A token holding a character other than a digit, beyond a leading
      sign, is not a number. */
  lemma ParseRejects(s: string, k: int)
    requires 0 <= k < |s| && !IsDigit(s[k]) && !(k == 0 && (s[0] == '-' || s[0] == '+'))
    ensures ParseInt(s).None?
  {
    if |s| > 0 && (s[0] == '-' || s[0] == '+') {
      assert s[1..][k - 1] == s[k];
    }
  }

  datatype ScriptError = InvalidGrammar(message: string)

  /** A successful statement: the script's task list with the new task, and
      the id printed in "Task added.. [T<id>]". */
  datatype TaskAdded = TaskAdded(taskList: seq<Task>, printedId: int)

  const Usage: string := "Invalid input. Expected[task: <name: string>, <hours: int>, <num_days: int>]"

  /** processFunc for `task:`: the id is the manager's last task id plus the
      number of tasks the script has made; hours and days are parsed, and any
      failure (a missing token included) becomes InvalidGrammarException. */
  function ProcessFunc(tokens: seq<string>, lastTaskId: int, taskList: seq<Task>, today: int)
    : (r: Result<TaskAdded, ScriptError>)
    ensures r.Ok? <==> |tokens| >= 3 && ParseInt(tokens[1]).Some? && ParseInt(tokens[2]).Some?
    ensures r.Err? ==> r.error == InvalidGrammar(Usage)
    ensures r.Ok? ==> |r.value.taskList| == |taskList| + 1
    ensures r.Ok? ==>
      var t := r.value.taskList[|taskList|];
      && r.value.taskList[..|taskList|] == taskList
      && t.id == lastTaskId + |taskList|
      && t.name == tokens[0]
      && t.total == ParseInt(tokens[1]).value
      && t.due == today + ParseInt(tokens[2]).value
      && r.value.printedId == t.id
  {
    if |tokens| < 3 then Err(InvalidGrammar(Usage))
    else
      var id := lastTaskId + |taskList|;
      match (ParseInt(tokens[1]), ParseInt(tokens[2]))
      case (Some(hours), Some(days)) =>
        var list := taskList + [NewTask(id, tokens[0], hours, today + days)];
        Ok(TaskAdded(list, lastTaskId + |list| - 1))
      case _ => Err(InvalidGrammar(Usage))
  }

  /** The script's tasks carry consecutive ids from the manager's last id on. */
  predicate Numbered(taskList: seq<Task>, lastTaskId: int)
  {
    forall i :: 0 <= i < |taskList| ==> taskList[i].id == lastTaskId + i
  }

  /** Every statement keeps the numbering: ids stay consecutive and unique. */
  lemma ProcessFuncNumbered(tokens: seq<string>, lastTaskId: int, taskList: seq<Task>, today: int)
    requires Numbered(taskList, lastTaskId)
    ensures var r := ProcessFunc(tokens, lastTaskId, taskList, today);
      r.Ok? ==> Numbered(r.value.taskList, lastTaskId)
  {
  }

  /** A statement with well-formed numbers succeeds whatever they are. */
  lemma ProcessFuncAccepts(name: string, hours: int, days: int, lastTaskId: int, taskList: seq<Task>, today: int)
    requires MinInt <= hours <= MaxInt && MinInt <= days <= MaxInt
    ensures var r := ProcessFunc([name, Show(hours), Show(days)], lastTaskId, taskList, today);
      r.Ok? && r.value.taskList[|taskList|] == NewTask(lastTaskId + |taskList|, name, hours, today + days)
  {
    ParseShow(hours);
    ParseShow(days);
  }
}

=== FILE: tasks.dfy ===
/** Tasks and the due-date ordered task queues (Java `PriorityQueue<Task>`). */
module Tasks {

  /** A unit of work. `total` is the whole-hour requirement fixed at creation,
      `remaining` falls as hours are allocated, and `due` is the due date as a
      day index (the Java Calendar normalised to the start of that day). */
  datatype Task = Task(id: int, name: string, total: int, remaining: real, due: int)
  {
    /** Task.reset(): restores the full requirement as the remaining hours. */
    function Reset(): Task
    {
      this.(remaining := total as real)
    }

    /** The hours bookkeeping a task is meant to keep: 0 <= remaining <= total. */
    predicate Valid()
    {
      0.0 <= remaining <= total as real
    }
  }

  /** new Task(id, name, hours, days): all hours still outstanding. */
  function NewTask(id: int, name: string, hours: int, due: int): (t: Task)
    ensures t.Reset() == t
    ensures hours >= 0 ==> t.Valid()
  {
    Task(id, name, hours, hours as real, due)
  }

  /** Two records of the same task that differ at most in the hours allocated. */
  predicate SameTask(a: Task, b: Task)
  {
    a.Reset() == b.Reset()
  }

  /** The tasks of a queue with their allocations undone. */
  function Resets(q: seq<Task>): (r: seq<Task>)
    ensures |r| == |q|
    ensures forall i :: 0 <= i < |q| ==> r[i] == q[i].Reset()
  {
    seq(|q|, i requires 0 <= i < |q| => q[i].Reset())
  }

  /** The identity of a queue's contents, ignoring how many hours each task
      has been allocated: the measure that task conservation is stated in. */
  function Bag(q: seq<Task>): (r: multiset<Task>)
  {
    multiset(Resets(q))
  }

  lemma ResetsConcat(a: seq<Task>, b: seq<Task>)
    ensures Resets(a + b) == Resets(a) + Resets(b)
  {
  }

  lemma BagConcat(a: seq<Task>, b: seq<Task>)
    ensures Bag(a + b) == Bag(a) + Bag(b)
  {
    ResetsConcat(a, b);
  }

  /** Splitting a queue splits its contents. */
  lemma SplitAt<T>(s: seq<T>, k: nat)
    requires k <= |s|
    ensures multiset(s) == multiset(s[..k]) + multiset(s[k..])
  {
    assert s == s[..k] + s[k..];
  }

  lemma BagSplit(s: seq<Task>, k: nat)
    requires k <= |s|
    ensures Bag(s) == Bag(s[..k]) + Bag(s[k..])
  {
    assert s == s[..k] + s[k..];
    BagConcat(s[..k], s[k..]);
  }

  /** Undoing allocations twice is undoing them once. */
  lemma ResetsTwice(q: seq<Task>)
    ensures Resets(Resets(q)) == Resets(q)
    ensures Bag(Resets(q)) == Bag(q)
  {
  }

  lemma BagSingle(t: Task)
    ensures Bag([t]) == multiset{t.Reset()}
  {
    assert Resets([t]) == [t.Reset()];
  }

  /** The queue order: earliest due date first. */
  predicate Sorted(q: seq<Task>)
  {
    forall i, j :: 0 <= i < j < |q| ==> q[i].due <= q[j].due
  }

  predicate AllValid(q: seq<Task>)
  {
    forall i :: 0 <= i < |q| ==> q[i].Valid()
  }

  /** Where `t` enters the queue: after every task due no later than it. */
  function InsertPos(q: seq<Task>, t: Task): (k: nat)
    ensures k <= |q|
    ensures forall i :: 0 <= i < k ==> q[i].due <= t.due
    ensures k < |q| ==> q[k].due > t.due
  {
    if |q| == 0 || q[0].due > t.due then 0 else 1 + InsertPos(q[1..], t)
  }

  /** PriorityQueue.add. Among tasks due the same day the newcomer goes last. */
  function Insert(q: seq<Task>, t: Task): (r: seq<Task>)
    ensures |r| == |q| + 1
    ensures multiset(r) == multiset(q) + multiset{t}
  {
    var k := InsertPos(q, t);
    SplitMultiset(q, t, k);
    q[..k] + [t] + q[k..]
  }

  /** Adding a task adds it to the queue's contents. */
  lemma InsertBag(q: seq<Task>, t: Task)
    ensures Bag(Insert(q, t)) == Bag(q) + multiset{t.Reset()}
  {
    SplitBag(q, t, InsertPos(q, t));
  }

  /** Adding a task keeps the queue ordered. */
  lemma InsertSorted(q: seq<Task>, t: Task)
    requires Sorted(q)
    ensures Sorted(Insert(q, t))
  {
    SplitSorted(q, t, InsertPos(q, t));
  }

  lemma SplitMultiset(q: seq<Task>, t: Task, k: nat)
    requires k <= |q|
    ensures multiset(q[..k] + [t] + q[k..]) == multiset(q) + multiset{t}
  {
    assert q == q[..k] + q[k..];
  }

  lemma SplitBag(q: seq<Task>, t: Task, k: nat)
    requires k <= |q|
    ensures Bag(q[..k] + [t] + q[k..]) == Bag(q) + multiset{t.Reset()}
  {
    assert q == q[..k] + q[k..];
    BagConcat(q[..k] + [t], q[k..]);
    BagConcat(q[..k], [t]);
    BagConcat(q[..k], q[k..]);
    BagSingle(t);
  }

  lemma SplitSorted(q: seq<Task>, t: Task, k: nat)
    requires k == InsertPos(q, t)
    requires Sorted(q)
    ensures Sorted(q[..k] + [t] + q[k..])
  {
    var r := q[..k] + [t] + q[k..];
    assert forall i :: 0 <= i < k ==> r[i] == q[i];
    assert r[k] == t;
    assert forall i :: k < i < |r| ==> r[i] == q[i - 1];
    forall a, b | 0 <= a < b < |r| ensures r[a].due <= r[b].due {
      if b > k && a >= k {
        assert q[k].due > t.due;
      }
    }
  }

  /** Adding the tasks of `ts` one after another, in order. */
  function InsertAll(q: seq<Task>, ts: seq<Task>): (r: seq<Task>)
    ensures |r| == |q| + |ts|
    decreases |ts|
  {
    if |ts| == 0 then q else InsertAll(Insert(q, ts[0]), ts[1..])
  }

  /** Adding tasks one by one keeps the queue ordered and holds exactly the
      tasks of both. */
  lemma InsertAllFacts(q: seq<Task>, ts: seq<Task>)
    ensures multiset(InsertAll(q, ts)) == multiset(q) + multiset(ts)
    ensures Bag(InsertAll(q, ts)) == Bag(q) + Bag(ts)
    ensures Sorted(q) ==> Sorted(InsertAll(q, ts))
  {
    InsertAllMultiset(q, ts);
    InsertAllBag(q, ts);
    if Sorted(q) {
      InsertAllSortedQueue(q, ts);
    }
  }

  lemma {:induction false} InsertAllMultiset(q: seq<Task>, ts: seq<Task>)
    ensures multiset(InsertAll(q, ts)) == multiset(q) + multiset(ts)
    decreases |ts|
  {
    if |ts| > 0 {
      InsertAllMultiset(Insert(q, ts[0]), ts[1..]);
      assert ts == [ts[0]] + ts[1..];
      assert multiset(ts) == multiset{ts[0]} + multiset(ts[1..]);
    }
  }

  lemma {:induction false} InsertAllBag(q: seq<Task>, ts: seq<Task>)
    ensures Bag(InsertAll(q, ts)) == Bag(q) + Bag(ts)
    decreases |ts|
  {
    if |ts| > 0 {
      InsertAllBag(Insert(q, ts[0]), ts[1..]);
      InsertBag(q, ts[0]);
      assert ts == [ts[0]] + ts[1..];
      BagConcat([ts[0]], ts[1..]);
      BagSingle(ts[0]);
    }
  }

  lemma {:induction false} InsertAllSortedQueue(q: seq<Task>, ts: seq<Task>)
    requires Sorted(q)
    ensures Sorted(InsertAll(q, ts))
    decreases |ts|
  {
    if |ts| > 0 {
      InsertSorted(q, ts[0]);
      InsertAllSortedQueue(Insert(q, ts[0]), ts[1..]);
    }
  }

  /** Adding a task keeps a lower bound all queued due dates share. */
  lemma InsertBound(q: seq<Task>, t: Task, d: int)
    requires t.due >= d && forall i :: 0 <= i < |q| ==> q[i].due >= d
    ensures forall i :: 0 <= i < |Insert(q, t)| ==> Insert(q, t)[i].due >= d
  {
    var k := InsertPos(q, t);
    var r := Insert(q, t);
    assert r == q[..k] + [t] + q[k..];
    forall i | 0 <= i < |r| ensures r[i].due >= d {
      if i < k {
        assert r[i] == q[i];
      } else if i > k {
        assert r[i] == q[i - 1];
      }
    }
  }

  /** A task due no earlier than every queued task is appended at the tail. */
  lemma InsertLast(q: seq<Task>, t: Task)
    requires forall i :: 0 <= i < |q| ==> q[i].due <= t.due
    ensures Insert(q, t) == q + [t]
  {
    var k := InsertPos(q, t);
    assert k == |q|;
  }

  /** Re-adding the tasks of an already ordered queue, in queue order, onto
      a queue they all follow reproduces the concatenation. */
  lemma {:induction false} InsertAllSorted(p: seq<Task>, q: seq<Task>)
    requires Sorted(p + q)
    ensures InsertAll(p, q) == p + q
    decreases |q|
  {
    if |q| > 0 {
      assert forall i :: 0 <= i < |p| ==> p[i].due <= q[0].due by {
        forall i | 0 <= i < |p| ensures p[i].due <= q[0].due {
          assert (p + q)[i] == p[i] && (p + q)[|p|] == q[0];
        }
      }
      InsertLast(p, q[0]);
      assert p + q == (p + [q[0]]) + q[1..];
      InsertAllSorted(p + [q[0]], q[1..]);
    }
  }

  /** Index of the first occurrence of `x`. */
  function FirstIndex<T(==)>(s: seq<T>, x: T): (i: nat)
    requires x in s
    ensures i < |s| && s[i] == x
    ensures forall j :: 0 <= j < i ==> s[j] != x
  {
    if s[0] == x then 0 else 1 + FirstIndex(s[1..], x)
  }

  /** Collection.remove(Object): drops the first occurrence, if any. */
  function RemoveFirst<T(==)>(s: seq<T>, x: T): (r: seq<T>)
    ensures multiset(r) == multiset(s) - multiset{x}
    ensures x in s ==> |r| == |s| - 1
    ensures x !in s ==> r == s
    ensures forall y :: y in r ==> y in s
  {
    if x in s then
      var i := FirstIndex(s, x);
      assert s == s[..i] + [x] + s[i + 1..];
      s[..i] + s[i + 1..]
    else s
  }

  /** Removing an element just appended, that was not there before, gives
      back the original sequence. */
  lemma RemoveAppended<T>(s: seq<T>, x: T)
    requires x !in s
    ensures RemoveFirst(s + [x], x) == s
  {
    assert FirstIndex(s + [x], x) == |s|;
    assert (s + [x])[..|s|] == s;
  }

  /** Whether the queue holds a record of `t`. The queue and the task map
      share the Java object, which keeps its identity while hours are
      allocated to it, so records are compared up to allocated hours. */
  predicate Holds(q: seq<Task>, t: Task)
  {
    exists i :: 0 <= i < |q| && SameTask(q[i], t)
  }

  /** A queue holds `t` exactly when its contents, counted up to
      allocations, include `t`. */
  lemma HoldsBag(q: seq<Task>, t: Task)
    ensures Holds(q, t) <==> t.Reset() in Bag(q)
  {
    if t.Reset() in Bag(q) {
      var i :| 0 <= i < |q| && Resets(q)[i] == t.Reset();
      assert SameTask(q[i], t);
    }
  }

  /** Index of the first record of `t` in the queue. */
  function FindSame(q: seq<Task>, t: Task): (i: nat)
    requires Holds(q, t)
    ensures i < |q| && SameTask(q[i], t)
    ensures forall j :: 0 <= j < i ==> !SameTask(q[j], t)
  {
    if SameTask(q[0], t) then 0
    else
      var k :| 0 <= k < |q| && SameTask(q[k], t);
      assert SameTask(q[1..][k - 1], t);
      1 + FindSame(q[1..], t)
  }

  /** PriorityQueue.remove(Object) on task records: drops the first record
      of `t`, if there is one. */
  function RemoveSame(q: seq<Task>, t: Task): (r: seq<Task>)
    ensures Holds(q, t) ==> |r| == |q| - 1
    ensures Holds(q, t) ==> multiset(r) + multiset{q[FindSame(q, t)]} == multiset(q)
    ensures !Holds(q, t) ==> r == q
  {
    if Holds(q, t) then
      var i := FindSame(q, t);
      assert q == q[..i] + [q[i]] + q[i + 1..];
      q[..i] + q[i + 1..]
    else q
  }

  /** Removing a task takes exactly one copy of it out of the queue's
      contents, counted up to allocations. */
  lemma RemoveSameBag(q: seq<Task>, t: Task)
    ensures Bag(RemoveSame(q, t)) == Bag(q) - multiset{t.Reset()}
  {
    if Holds(q, t) {
      var i := FindSame(q, t);
      DropBag(q, i);
    } else {
      HoldsBag(q, t);
    }
  }

  lemma DropBag(q: seq<Task>, i: nat)
    requires i < |q|
    ensures Bag(q[..i] + q[i + 1..]) == Bag(q) - multiset{q[i].Reset()}
  {
    assert q == q[..i] + [q[i]] + q[i + 1..];
    BagConcat(q[..i] + [q[i]], q[i + 1..]);
    BagConcat(q[..i], [q[i]]);
    BagConcat(q[..i], q[i + 1..]);
    BagSingle(q[i]);
  }

  /** A task the queue held once is gone after it is removed. */
  lemma RemoveSameGone(q: seq<Task>, t: Task)
    requires Bag(q)[t.Reset()] <= 1
    ensures !Holds(RemoveSame(q, t), t)
  {
    RemoveSameBag(q, t);
    HoldsBag(RemoveSame(q, t), t);
  }

  /** Removing a task keeps the queue ordered. */
  lemma RemoveSameSorted(q: seq<Task>, t: Task)
    requires Sorted(q)
    ensures Sorted(RemoveSame(q, t))
  {
    if Holds(q, t) {
      DropSorted(q, FindSame(q, t));
    }
  }

  /** Dropping one task from an ordered queue leaves it ordered. */
  lemma DropSorted(q: seq<Task>, i: nat)
    requires Sorted(q) && i < |q|
    ensures Sorted(q[..i] + q[i + 1..])
  {
    var r := q[..i] + q[i + 1..];
    forall a, b | 0 <= a < b < |r| ensures r[a].due <= r[b].due {
      var a' := if a < i then a else a + 1;
      var b' := if b < i then b else b + 1;
      assert r[a] == q[a'] && r[b] == q[b'];
    }
  }

}

=== FILE: wrappers.dfy ===
/** Failure-carrying result types shared by the modules of the planner model. */
module Wrappers {

  /** A value that may be absent: Java's `null` returns. */
  datatype Option<+T> = None | Some(value: T)

  /** Either a value or the exception the Java code would throw. */
  datatype Result<+T, +E> = Ok(value: T) | Err(error: E)
}
